=== FILE: README.md ===
# Cartão SeuLink — a Dafny model

Cartão SeuLink is a link-in-bio web application. A signed-in user edits one
profile: a username, a display name, a bio, an avatar URL, a theme colour and
an ordered list of links, each of which can be hidden. Anyone can open the
profile's public page at `#/u/<username>`. The page shows the profile as a
card and offers a contact card (vCard) to download.

When no backend is configured, the application falls back to a mock client
that keeps every table in the browser's local storage. This model covers that
mock backend and the application logic on top of it:

- `Values`: parsed JSON values, and the JavaScript strict equality (`===`)
  the mock's filters and upserts compare with.
- `Text`: the string operations the code relies on.
  - `toLowerCase`, restricted to ASCII.
  - The regular-expression class `\s`.
  - `split` on one character, with `join` as its inverse.
- `Types`: `LinkItem` and `UserProfile`, and how a profile is written as an
  untyped table row and read back.
- `SupabaseClient`: the mock client.
  - Client selection.
  - The local store, as the class `LocalStore`.
  - The query builder (`from`, `eq`, `single`, `execute`, `upsert`, `commit`),
    as the class `QueryBuilder` over a snapshot of one table.
  - Sign-in, sign-up and sign-out, as the class `MockSupabaseClient`.
- `Card`: what the profile card shows.
  - Which links are visible.
  - The background colour and the light or dark text scheme.
  - The placeholders for a missing name and bio, and the empty-state box.
- `App`: the hash router.
- `Dashboard`: the profile editor.
  - Its pure operations: add, remove and edit a link, normalise the username,
    build the new-user profile, build the row that is saved.
  - The class `Editor`: its working copy, loading the profile, edits, and save.
- `PublicProfile`: the public viewer.
  - How it finds the username.
  - The lookup by username and the screen it shows.
  - The vCard 3.0 text (RFC 2426) and the downloaded file.

Local storage is modelled as already-parsed values, one entry per table key.
Each method that changes state is specified by a function of its old state.
Lemmas about those functions state what the application relies on. The main
ones:

- A saved profile reads back unchanged.
- Signing up twice seeds one profile.
- Filters keep table order.
- A lookup with `single` returns the first match.
- Adding and then removing a link is a no-op.
- Normalising a username is idempotent.
- Whenever the router matches a route, the viewer's own fragment parse finds
  the same name; the parse also accepts routes the router rejects.

## Model

| member | source | states |
|---|---|---|
| Values.StrictEqualsMeansSamePrimitive | supabaseClient.ts:110 | `===` holds exactly between equal primitive values; an array or object never equals a stored value |
| Text.ToLower | components/Card.tsx:17 | lower-casing keeps the length and maps every character to its lower-case form at the same position |
| Text.ToLowerIdempotent | components/Card.tsx:17 | lower-casing an already lower-cased string changes nothing |
| Text.RemoveWhitespaceSpec | pages/Dashboard.tsx:224 | `replace(/\s/g, '')` keeps exactly the non-whitespace characters, never lengthens, and leaves a whitespace-free string as it is |
| Text.RemoveWhitespaceAppend | pages/Dashboard.tsx:224 | the removal distributes over concatenation, so the kept characters stay in their order |
| Text.Split | pages/PublicProfile.tsx:26 | `split` always yields at least one part |
| Text.SplitPartsLackSeparator | pages/PublicProfile.tsx:26 | no part produced by `split` contains the separator |
| Text.JoinSplit | pages/PublicProfile.tsx:26 | joining the parts of a split with the separator gives back the original string |
| Text.SplitWithoutSeparator | pages/PublicProfile.tsx:26 | a string without the separator splits into itself alone |
| Text.SplitAfterPrefix | pages/PublicProfile.tsx:26 | a separator-free prefix followed by the separator splits off as the first part |
| Text.SplitJoin | pages/PublicProfile.tsx:63-69 | splitting a join of separator-free parts gives back exactly those parts |
| Text.JoinSplitsPart | pages/PublicProfile.tsx:63-69 | a part that contains the separator joins to the same text as its two halves given separately |
| Text.BeforeFirstSpec | pages/Dashboard.tsx:65 | `split(sep)[0]` is the longest prefix free of the separator, and the separator follows it when it is shorter than the string |
| Types.LinksRoundTrip | types.ts:1-6 | every list of links survives being written as an array of objects and read back |
| Types.ProfileRoundTrip | types.ts:8-17 | every profile survives being written as a row and read back |
| Types.MergedRowReadsAsProfile | supabaseClient.ts:99 | a stamped profile merged over any older row with `{...old, ...new}` still reads back as exactly that profile |
| SupabaseClient.MockWhenUnconfigured | supabaseClient.ts:21 | the mock is chosen exactly when the URL or key is missing or empty, or the URL is the placeholder `https://your-project.supabase.co` |
| SupabaseClient.Filtered | supabaseClient.ts:110 | defines `filter(item => item[col] === val)`; characterised by FilteredAppend, FilteredMembership, FilteredEmpty, FilteredFirst and FilteredAllSatisfy |
| SupabaseClient.Answer | supabaseClient.ts:107-117 | defines what `execute(single)` answers over a snapshot and an optional filter; characterised by ExecuteWithoutFilter, SingleNotFound and SingleReturnsFirstMatch, and with a filter by the Filtered lemmas, FilteredAllSatisfy among them |
| SupabaseClient.FilteredAppend | supabaseClient.ts:110 | the filter distributes over concatenation, so matching rows keep table order |
| SupabaseClient.FilteredMembership | supabaseClient.ts:110 | a row is in the result exactly when it is in the table and its column `===` the value |
| SupabaseClient.FilteredEmpty | supabaseClient.ts:110 | the result is empty exactly when no row satisfies the filter |
| SupabaseClient.FilteredFirst | supabaseClient.ts:110 | the first row of the result is the earliest satisfying row of the table |
| SupabaseClient.FilteredAllSatisfy | supabaseClient.ts:110 | when every row satisfies the filter the result is the table itself, so no row is returned twice |
| SupabaseClient.ExecuteWithoutFilter | supabaseClient.ts:107-117 | without a filter, `execute` returns every row of the snapshot and no error |
| SupabaseClient.SingleNotFound | supabaseClient.ts:113-114 | `single` answers `PGRST116` with no data exactly when no row matches |
| SupabaseClient.SingleReturnsFirstMatch | supabaseClient.ts:113-115 | with a match, `single` answers the earliest matching row, unmodified and without error |
| SupabaseClient.IndexOfId | supabaseClient.ts:97 | `findIndex` returns -1 exactly when no row's id `===` the new id, and otherwise the first index whose id does |
| SupabaseClient.Upserted | supabaseClient.ts:97-102 | defines the table after `upsert`: merged into the first row with the id, or appended; characterised by UpsertAppendsNew and UpsertMergesFirst |
| SupabaseClient.UpsertAppendsNew | supabaseClient.ts:100-102 | a record whose id no row carries is appended after the unchanged rows |
| SupabaseClient.UpsertMergesFirst | supabaseClient.ts:97-99 | a record is merged into the first row with its id: its own properties win, the row's other properties stay, no other row changes |
| SupabaseClient.UpsertTwiceSameId | supabaseClient.ts:95-104 | two upserts with the same string id into an empty table leave one row, the second record's properties over the first's |
| SupabaseClient.UpsertThenSingle | supabaseClient.ts:95-118 | after an upsert with a string id, `single` on that id finds a row carrying every property of the saved record |
| SupabaseClient.SavedProfileReadsBack | supabaseClient.ts:95-118 | a stamped profile saved with `upsert` is read back by an id lookup as exactly that profile |
| SupabaseClient.QueryBuilder.constructor | supabaseClient.ts:77-80 | the builder holds the table's stored rows, or none for a table never written, and no filter |
| SupabaseClient.QueryBuilder.Eq | supabaseClient.ts:86-89 | `eq` replaces any earlier filter with the new column and value |
| SupabaseClient.QueryBuilder.Execute | supabaseClient.ts:107-118 | `execute` answers the filtered snapshot, or its first row or not-found for `single`, and changes nothing |
| SupabaseClient.QueryBuilder.Single | supabaseClient.ts:91-93 | `single` is `execute(true)` |
| SupabaseClient.QueryBuilder.Commit | supabaseClient.ts:120-122 | `commit` stores the whole snapshot under `sb-mock-<table>` and no other key |
| SupabaseClient.QueryBuilder.Upsert | supabaseClient.ts:95-105 | `upsert` merges or appends in the snapshot, commits it, and answers the record itself with no error |
| SupabaseClient.LastFilterWins | supabaseClient.ts:86-89 | after two `eq` calls only the second filter applies |
| SupabaseClient.SnapshotIgnoresLaterWrites | supabaseClient.ts:77-80 | a builder answers from the rows read when it was created, even after another builder upserts |
| SupabaseClient.SignedUp | supabaseClient.ts:46-57 | defines storage after `signUp`: the seed row appended only when no row has the mock id; characterised by SignUpAppendsSeed, SignUpIdempotent and SignUpSeedsOnce |
| SupabaseClient.SignUpAppendsSeed | supabaseClient.ts:46-57 | with a mock profile stored, sign-up leaves storage as it is; otherwise the profiles table keeps every row and gains one row at its end, which reads as the default profile with the e-mail's local part as username |
| SupabaseClient.SignUpIdempotent | supabaseClient.ts:43-59 | a second sign-up, with any e-mail, leaves storage as the first left it |
| SupabaseClient.SignUpSeedsOnce | supabaseClient.ts:46-57 | after sign-up exactly one profile row has the mock id if none had; the count is unchanged otherwise; no other table changes |
| SupabaseClient.SeedReadsAsProfile | supabaseClient.ts:48-55 | the seeded row reads as a profile with the e-mail's local part as username, empty texts, no links and a black theme |
| SupabaseClient.MockSupabaseClient.GetSession | supabaseClient.ts:28-31 | a session exists exactly when a user is stored, and it holds that user |
| SupabaseClient.MockSupabaseClient.SignInWithPassword | supabaseClient.ts:36-42 | any password signs in: the fixed mock user with the given e-mail is stored and answered with a session |
| SupabaseClient.MockSupabaseClient.SignUp | supabaseClient.ts:43-59 | sign-up seeds a profile only when none has the mock id, does not sign in, and answers the user without a session |
| SupabaseClient.MockSupabaseClient.SignOut | supabaseClient.ts:60-64 | sign-out removes the stored user and reports no error |
| SupabaseClient.MockSupabaseClient.From | supabaseClient.ts:67-69 | `from` gives a fresh builder over the current rows of the table |
| Card.BackgroundColor | components/Card.tsx:13 | defines the background: the theme colour, or `#000000` when it is empty; see DefaultIsDark |
| Card.IsDark | components/Card.tsx:17 | defines the dark test: the lower-cased background is one of the four listed colours; characterised by IsDarkIgnoresCase, UpperCaseDarkColour and OnlyBlackPresetIsDark |
| Card.VisibleLinks | components/Card.tsx:54 | defines `links.filter(l => l.active)`; characterised by VisibleLinksMembership, VisibleLinksAppend, NoActiveNoneVisible and OnlyActiveLinkShows |
| Card.Render | components/Card.tsx:11-80 | defines what the card shows; characterised by AllHiddenShowsNothing, DefaultIsDark, ColoursFollowDarkness and TextFallbacks |
| Card.VisibleLinksMembership | components/Card.tsx:54 | a link is shown exactly when it is in the profile and active |
| Card.VisibleLinksAppend | components/Card.tsx:54 | the visible links keep their relative order |
| Card.NoActiveNoneVisible | components/Card.tsx:54 | no link is shown when none is active |
| Card.AllHiddenShowsNothing | components/Card.tsx:54-71 | a profile whose links are all hidden shows neither links nor the empty-state box, which depends on the total count |
| Card.OnlyActiveLinkShows | components/Card.tsx:54 | of an active and a hidden link only the active one shows |
| Card.IsDarkIgnoresCase | components/Card.tsx:17 | the dark test gives the same answer for a colour and its lower-case form |
| Card.DefaultIsDark | components/Card.tsx:13-20 | a profile without a theme colour renders on `#000000` with white text |
| Card.UpperCaseDarkColour | components/Card.tsx:17 | `#1E293B` and `#0F172A` count as dark, `#2563EB` does not |
| Card.ColoursFollowDarkness | components/Card.tsx:17-20 | text and button colours depend only on whether the background is dark |
| Card.TextFallbacks | components/Card.tsx:47-49 | the name and bio fall back to their placeholders exactly when empty, so neither shows empty |
| App.PublicProfileMatch | App.tsx:33 | defines the match of `^#\/u\/([^/]+)$` and its capture group; characterised by PublicProfileMatchSpec and TrailingSlashOrEmptyRejected |
| App.Router | App.tsx:19-43 | defines the screen: loading first, then the public-profile route, then auth or dashboard; characterised by LoadingWins, PublicProfileNeedsNoUser and OtherRoutesByUser |
| App.PublicProfileMatchSpec | App.tsx:33 | `^#\/u\/([^/]+)$` matches exactly `#/u/` followed by one or more non-`/` characters, and captures them |
| App.TrailingSlashOrEmptyRejected | App.tsx:33 | a trailing slash or an empty name does not match |
| App.LoadingWins | App.tsx:19-28 | while authentication is loading, the loading screen shows whatever the route |
| App.PublicProfileNeedsNoUser | App.tsx:32-36 | a public-profile route shows the profile whether or not a user is signed in |
| App.OtherRoutesByUser | App.tsx:38-43 | any other route shows the auth page without a user and the dashboard with one |
| Dashboard.AddLink | pages/Dashboard.tsx:101-109 | defines `addLink` with the fresh id as a parameter; characterised by AddLinkSpec and AddThenRemove |
| Dashboard.RemoveLink | pages/Dashboard.tsx:111-113 | defines `removeLink`; characterised by RemoveLinkSpec, WithoutIdAppend and AddThenRemove |
| Dashboard.UpdateLink | pages/Dashboard.tsx:115-120 | defines `updateLink` with a typed field edit; characterised by UpdateLinkSpec and ApplyEditSpec |
| Dashboard.AddLinkSpec | pages/Dashboard.tsx:101-109 | adding appends one empty, active link with the fresh id, and changes nothing else |
| Dashboard.WithoutIdAppend | pages/Dashboard.tsx:112 | removal by id distributes over concatenation, so the order of the remaining links is kept |
| Dashboard.WithoutIdMembership | pages/Dashboard.tsx:112 | removal keeps exactly the links with another id |
| Dashboard.WithoutAbsentId | pages/Dashboard.tsx:112 | removing an id no link carries changes nothing |
| Dashboard.RemoveLinkSpec | pages/Dashboard.tsx:111-113 | `removeLink` keeps exactly the links with another id and no other field changes |
| Dashboard.AddThenRemove | pages/Dashboard.tsx:101-113 | adding a link with a fresh id and removing it again restores the profile |
| Dashboard.ApplyEditSpec | pages/Dashboard.tsx:118 | `{...l, [field]: value}` sets its own field and keeps the link's other fields |
| Dashboard.EditLinksSpec | pages/Dashboard.tsx:118 | the map keeps the length and edits exactly the links with the id, position by position |
| Dashboard.UpdateLinkSpec | pages/Dashboard.tsx:115-120 | `updateLink` keeps the length and order, edits every link with the id, and keeps every other link and profile field |
| Dashboard.NormalizeUsername | pages/Dashboard.tsx:224 | defines the username handler's `toLowerCase().replace(/\s/g, '')`; characterised by NormalizedIsClean, NormalizeIdempotent and NormalizeFixedPoints |
| Dashboard.RemoveWhitespaceToLower | pages/Dashboard.tsx:224 | removing whitespace and lower-casing commute |
| Dashboard.NormalizedIsClean | pages/Dashboard.tsx:224 | a normalised username has no whitespace and no upper-case ASCII letter |
| Dashboard.NormalizeIdempotent | pages/Dashboard.tsx:224 | normalising a username twice is normalising it once |
| Dashboard.NormalizeFixedPoints | pages/Dashboard.tsx:224 | a username is left as it is exactly when it has no whitespace and no upper-case ASCII letter |
| Dashboard.NewUserUsername | pages/Dashboard.tsx:65 | defines `email?.split('@')[0] \|\| 'user'`; characterised by NewUserUsernameSpec |
| Dashboard.NewUserUsernameSpec | pages/Dashboard.tsx:65 | the new-user username is never empty and has no `@`; unless it is `user` it is the whole local part, a prefix of the e-mail ending at its end or its first `@`; it is `user` when the e-mail is missing, empty or starts with `@`; and any non-empty local part is the result |
| Dashboard.FetchedProfile | pages/Dashboard.tsx:56-66 | defines the profile after `fetchProfile` from the previous one and the response; characterised by FetchNotFoundSeeds, FetchOtherErrorKeeps, FetchFromStorage and FetchLoadsFirstRow |
| Dashboard.FetchNotFoundSeeds | pages/Dashboard.tsx:56-66 | not-found seeds the initial profile with the account's id and derived username |
| Dashboard.FetchOtherErrorKeeps | pages/Dashboard.tsx:56 | any error other than `PGRST116` keeps the previous profile |
| Dashboard.FetchFromStorage | pages/Dashboard.tsx:50-66 | over the mock, when no stored row has the account's id, the editor gets the new-user profile |
| Dashboard.FetchLoadsFirstRow | pages/Dashboard.tsx:50-59 | over the mock, the editor loads the first stored row with the account's id, whatever rows follow it |
| Dashboard.Changed | pages/Dashboard.tsx:224-278 | defines the working copy after each `setProfile` handler; characterised by ChangeKeepsIdentity and the link lemmas |
| Dashboard.ChangeKeepsIdentity | pages/Dashboard.tsx:224-278 | no edit handler changes the profile's id or its save stamp |
| Dashboard.SaveRecord | pages/Dashboard.tsx:80-83 | defines the row `handleSave` upserts; characterised by SaveRecordSpec and SavedProfileReadsBack |
| Dashboard.SaveRecordSpec | pages/Dashboard.tsx:80-83 | the saved row is the working copy's row with `updated_at` set to the given time and nothing else changed |
| Dashboard.OnlyBlackPresetIsDark | pages/Dashboard.tsx:10-19 | of the eight preset colours only black gets the card's dark text scheme |
| Dashboard.ShareLinkOpensProfile | pages/Dashboard.tsx:123 | the shared `#/u/<username>` link opens the public profile exactly when the username is non-empty and has no `/`; the normaliser keeps `/` |
| Dashboard.Editor.constructor | pages/Dashboard.tsx:34-37 | the editor starts with the initial profile, loading, not saving and no message |
| Dashboard.Editor.FetchProfile | pages/Dashboard.tsx:47-73 | `fetchProfile` looks the account up by id, sets the profile as the not-found and error rules say, stops loading, and changes no storage |
| Dashboard.Editor.Change | pages/Dashboard.tsx:224-278 | each handler changes only the working copy |
| Dashboard.Editor.HandleSave | pages/Dashboard.tsx:75-99 | `handleSave` upserts the stamped working copy into `profiles`, reports success and stops saving |
| Dashboard.AddThenRemoveBeforeSave | pages/Dashboard.tsx:101-113 | adding then removing a fresh link leaves both the working copy and storage as they were |
| Dashboard.SaveThenReload | pages/Dashboard.tsx:47-99 | saving and then loading again gives back the working copy, stamped with the save time |
| PublicProfile.HashUsername | pages/PublicProfile.tsx:26-30 | defines the fallback parse of the fragment; characterised by FallbackAgreesWithRouter and FallbackIsLooser |
| PublicProfile.SplitProfileHash | pages/PublicProfile.tsx:26 | `#/u/<name>/<rest>` splits into `#`, `u`, the name, then the parts of the rest |
| PublicProfile.FallbackAgreesWithRouter | pages/PublicProfile.tsx:26-30 | whenever the router matches a route, the viewer's own fragment parse finds the same name |
| PublicProfile.FallbackIsLooser | pages/PublicProfile.tsx:26-30 | the fragment parse also accepts a longer path and an empty name, which the router rejects |
| PublicProfile.LookedUp | pages/PublicProfile.tsx:49-53 | defines the effect of the lookup on the error and profile states; characterised by LookupErrorShowsNotFound and LookupOverStorage |
| PublicProfile.ScreenOf | pages/PublicProfile.tsx:81-102 | defines the screen: skeleton while loading, 404 on an error or no profile, the card otherwise |
| PublicProfile.LookupErrorShowsNotFound | pages/PublicProfile.tsx:49-53 | every failed lookup ends in the 404 state with the profile-not-found message |
| PublicProfile.LookupOverStorage | pages/PublicProfile.tsx:40-57 | over the mock, the viewer shows the card of the first stored row with the username |
| PublicProfile.Viewer.constructor | pages/PublicProfile.tsx:17-20 | a non-empty prop is the username, otherwise none; no profile, loading and no error |
| PublicProfile.Viewer.ResolveUsername | pages/PublicProfile.tsx:23-32 | without a username, the third `/`-separated part of the fragment is taken when the second is `u` |
| PublicProfile.Viewer.FetchProfile | pages/PublicProfile.tsx:40-57 | the lookup by username sets the error on any failure and the profile otherwise, then stops loading |
| PublicProfile.Viewer.Mount | pages/PublicProfile.tsx:23-38 | both effects in order; the lookup runs only for a non-empty username |
| PublicProfile.OpenPublicProfile | pages/PublicProfile.tsx:81-102 | opening a routed name shows the first matching profile's card, or the 404 state |
| PublicProfile.MountWithoutName | pages/PublicProfile.tsx:81-91 | without a usable name the lookup never runs and the skeleton stays |
| PublicProfile.VCardLines | pages/PublicProfile.tsx:63-69 | defines the seven lines of the card template; characterised by VCardLinesSpec |
| PublicProfile.VCard | pages/PublicProfile.tsx:63-69 | defines the card text as the template lines joined by line breaks; characterised by VCardLinesSpec and UnescapedBioEndsCardEarly |
| PublicProfile.DownloadVCard | pages/PublicProfile.tsx:59-79 | defines the download: none without a profile, otherwise the file name and text; characterised by DownloadSpec |
| PublicProfile.DownloadSpec | pages/PublicProfile.tsx:59-79 | without a profile nothing downloads; otherwise the file is `<username>.vcf` and its text starts with `BEGIN:VCARD` |
| PublicProfile.VCardLinesSpec | pages/PublicProfile.tsx:63-69 | when no value holds a line break, the card is exactly its seven template lines |
| PublicProfile.UnescapedBioEndsCardEarly | pages/PublicProfile.tsx:63-69 | values are inserted verbatim: for any bio `x` + line break + `y` the card has eight lines, `NOTE:x` then `y`, so a bio `x\nEND:VCARD` ends the card right after the NOTE line |

## Left out

- The hosted backend client (`createClient`) and reading the environment: the model takes the two configuration values as parameters and covers only the mock.
- JSON serialisation of local storage: tables are kept as parsed values, so `JSON.stringify` followed by `JSON.parse` is taken to be the identity.
- The user's storage key `sb-mock-user` and the table keys `sb-mock-<table>` are kept apart. The source would clash for a table named `user`, which it never queries.
- Numbers are integers. Floating-point values and `NaN` are not modelled.
- Values.StrictEquals: models reference equality of arrays and objects as never equal. A row read back from storage is always a fresh object, so this is how the source behaves whenever it compares a stored value.
- `onAuthStateChange`: a stub that never calls its callback. `select` returns the builder unchanged. Neither has behaviour to model.
- `window.location.reload` after sign-in and sign-out, and React's rendering and effect scheduling, are not modelled. Only the effect bodies and the screen each state selects are modelled.
- The browser side of the download (`Blob`, object URL, anchor click), the clipboard, `alert`, the 3-second `setTimeout` that clears the save message, the QR-code overlay and the tab switch for mobile are not modelled.
- `crypto.randomUUID`, `new Date().toISOString()`, `window.location.hash`, `window.location.href` and the e-mail of the signed-in user are parameters.
- Text.ToLower: lower-cases ASCII letters only. JavaScript's `toLowerCase` also maps non-ASCII letters; no constant the code compares against contains one.
- Types.ProfileOfRecord: reads a row that lacks `avatar_url` as an empty avatar, which is what the card and vCard do with `undefined`. A row missing any other field, or with a mistyped one, does not read as a profile.
- Dashboard.FetchedProfile: when a stored row does not read as a profile, the editor keeps its previous profile. The source hands the raw object to `setProfile`.
- Dashboard.Editor.HandleSave: saves the typed working copy, not the raw row. A row without `avatar_url` (such as the one sign-up seeds) is saved with `avatar_url` set to the empty string, where the source keeps the property absent; extra properties of the row or of its link objects are not carried into the saved row. The card and vCard show the same either way.
- SupabaseClient.QueryBuilder.Execute: answers values, not references. In the source, `execute` without a filter returns the builder's own `data` array and `upsert` pushes the caller's object, so a result taken before an upsert on the same builder changes with it; the model does not capture this aliasing.
- PublicProfile.LookedUp: when a stored row does not read as a profile, the viewer shows the 404 state. The source renders the raw object.
- Dashboard.LinkEdit: each field is paired with a value of its own type. The source's `updateLink` accepts `string | boolean` for any key of `LinkItem`.
- Two saves in flight at once are not modelled. Each operation runs to completion before the next.
- The vCard lines are joined with `\n`, as the template literal in the source file is written. A checkout with CRLF line endings would produce `\r\n`.
- The sign-in and sign-up form (`AuthPage`), the authentication context and the language toggle and translations are not part of this model. The router takes the user and loading state as inputs.

=== FILE: app.dfy ===
/**
 * The hash router: a first-match decision over the authentication state and
 * the URL fragment.
 */
module App {
  import opened Values

  datatype Screen = LoadingScreen | PublicProfileScreen(username: string) | AuthScreen | DashboardScreen

  const PublicPrefix := "#/u/"

  /** `route.match(/^#\/u\/([^/]+)$/)`, giving its capture group. */
  function PublicProfileMatch(route: string): Option<string>
  {
    if |route| > |PublicPrefix| && route[..|PublicPrefix|] == PublicPrefix && '/' !in route[|PublicPrefix|..]
    then Some(route[|PublicPrefix|..])
    else None
  }

  /** Loading first, then the public-profile pattern, then auth or dashboard. */
  function Router(loading: bool, route: string, signedIn: bool): Screen
  {
    if loading then LoadingScreen
    else match PublicProfileMatch(route)
      case Some(username) => PublicProfileScreen(username)
      case None => if !signedIn then AuthScreen else DashboardScreen
  }

  /**
   * The pattern matches exactly `#/u/` followed by one or more characters
   * other than `/`, and captures those characters.
   */
  lemma PublicProfileMatchSpec(route: string, username: string)
    ensures PublicProfileMatch(route) == Some(username)
        <==> route == PublicPrefix + username && username != "" && '/' !in username
  {
    if route == PublicPrefix + username {
      assert route[..|PublicPrefix|] == PublicPrefix && route[|PublicPrefix|..] == username;
    }
  }

  /** A trailing slash or an empty name does not match. */
  lemma TrailingSlashOrEmptyRejected(username: string)
    ensures PublicProfileMatch(PublicPrefix + username + "/") == None
    ensures PublicProfileMatch(PublicPrefix) == None
  {
    var route := PublicPrefix + username + "/";
    assert route[|route| - 1] == '/';
    assert route[|PublicPrefix|..][|route| - 1 - |PublicPrefix|] == '/';
  }

  /** While loading, nothing else is looked at. */
  lemma LoadingWins(route: string, signedIn: bool)
    ensures Router(true, route, signedIn) == LoadingScreen
  {
  }

  /** The public profile is shown whether or not anyone is signed in. */
  lemma PublicProfileNeedsNoUser(route: string, username: string, signedIn: bool)
    requires route == PublicPrefix + username && username != "" && '/' !in username
    ensures Router(false, route, signedIn) == PublicProfileScreen(username)
  {
    PublicProfileMatchSpec(route, username);
  }

  /** Any other fragment gives the auth page without a user and the dashboard with one. */
  lemma OtherRoutesByUser(route: string, signedIn: bool)
    requires PublicProfileMatch(route) == None
    ensures Router(false, route, signedIn) == if signedIn then DashboardScreen else AuthScreen
  {
  }
}

=== FILE: card.dfy ===
/**
 * The rendering decisions of the profile card: which links show, the
 * background colour, the light-or-dark text scheme, the text fallbacks and
 * the empty-state placeholder.
 */
module Card {
  import opened Text
  import opened Types

  const DefaultBackground := "#000000"

  /** The background colours that get light text, in lower case. */
  const DarkBackgrounds: seq<string> := ["#000000", "#1e293b", "#0f172a", "#334155"]

  const NamePlaceholder := "Your Name"
  const BioPlaceholder := "Add a bio to tell people who you are."

  /** `profile.theme_color || '#000000'`. */
  function BackgroundColor(p: UserProfile): string
  {
    if p.themeColor == "" then DefaultBackground else p.themeColor
  }

  /** `[...].includes(bgColor.toLowerCase())`. */
  predicate IsDark(bg: string)
  {
    ToLower(bg) in DarkBackgrounds
  }

  function TextColor(dark: bool): string
  {
    if dark then "text-white" else "text-slate-900"
  }

  function ButtonBackground(dark: bool): string
  {
    if dark then "bg-white/10 hover:bg-white/20" else "bg-black/5 hover:bg-black/10"
  }

  function ButtonText(dark: bool): string
  {
    if dark then "text-white" else "text-slate-900"
  }

  function DisplayName(p: UserProfile): string
  {
    if p.fullName == "" then NamePlaceholder else p.fullName
  }

  function DisplayBio(p: UserProfile): string
  {
    if p.bio == "" then BioPlaceholder else p.bio
  }

  /** `profile.links.filter(l => l.active)`. */
  function VisibleLinks(links: seq<LinkItem>): seq<LinkItem>
  {
    if links == [] then []
    else (if links[0].active then [links[0]] else []) + VisibleLinks(links[1..])
  }

  /** The placeholder depends on the total number of links, not the visible ones. */
  predicate ShowsEmptyState(p: UserProfile)
  {
    |p.links| == 0
  }

  /** What the card shows, as a value. */
  datatype Look = Look(
    background: string,
    textColor: string,
    buttonBackground: string,
    buttonText: string,
    name: string,
    bio: string,
    avatar: string,
    links: seq<LinkItem>,
    emptyState: bool)

  function Render(p: UserProfile): Look
  {
    var bg := BackgroundColor(p);
    var dark := IsDark(bg);
    Look(bg, TextColor(dark), ButtonBackground(dark), ButtonText(dark),
         DisplayName(p), DisplayBio(p), p.avatarUrl, VisibleLinks(p.links), ShowsEmptyState(p))
  }

  /** A link shows exactly when it is in the profile and active. */
  lemma {:induction false} VisibleLinksMembership(links: seq<LinkItem>, l: LinkItem)
    ensures l in VisibleLinks(links) <==> l in links && l.active
  {
    if links != [] {
      VisibleLinksMembership(links[1..], l);
      assert links == [links[0]] + links[1..];
    }
  }

  /** Visible links keep their relative order: the filter distributes over concatenation. */
  lemma {:induction false} VisibleLinksAppend(a: seq<LinkItem>, b: seq<LinkItem>)
    ensures VisibleLinks(a + b) == VisibleLinks(a) + VisibleLinks(b)
  {
    if a == [] {
      assert a + b == b;
    } else {
      var head := if a[0].active then [a[0]] else [];
      calc {
        VisibleLinks(a + b);
        { assert (a + b)[0] == a[0] && (a + b)[1..] == a[1..] + b; }
        head + VisibleLinks(a[1..] + b);
        { VisibleLinksAppend(a[1..], b); }
        head + (VisibleLinks(a[1..]) + VisibleLinks(b));
      }
    }
  }

  /** Nothing shows when no link is active. */
  lemma {:induction false} NoActiveNoneVisible(links: seq<LinkItem>)
    requires forall i :: 0 <= i < |links| ==> !links[i].active
    ensures VisibleLinks(links) == []
  {
    if links != [] {
      NoActiveNoneVisible(links[1..]);
    }
  }

  /** A card whose links are all hidden shows neither links nor the placeholder. */
  lemma AllHiddenShowsNothing(p: UserProfile)
    requires |p.links| > 0 && forall i :: 0 <= i < |p.links| ==> !p.links[i].active
    ensures Render(p).links == [] && !Render(p).emptyState
  {
    NoActiveNoneVisible(p.links);
  }

  /** Of the links `[1 (active), 2 (hidden)]` only the first shows. */
  lemma OnlyActiveLinkShows(a: LinkItem, b: LinkItem)
    requires a.active && !b.active
    ensures VisibleLinks([a, b]) == [a]
  {
    assert [a, b][1..] == [b];
    assert VisibleLinks([b]) == [] + VisibleLinks([]);
  }

  /** The dark test ignores ASCII case. */
  lemma IsDarkIgnoresCase(bg: string)
    ensures IsDark(bg) <==> IsDark(ToLower(bg))
  {
    ToLowerIdempotent(bg);
  }

  /** A profile without a theme colour renders on black with light text. */
  lemma DefaultIsDark(p: UserProfile)
    requires p.themeColor == ""
    ensures Render(p).background == "#000000" && Render(p).textColor == "text-white"
  {
    assert ToLower(DefaultBackground) == DefaultBackground;
  }

  /** Lower-casing a seven-character colour, character by character. */
  lemma LowerColour(c: string, lower: string)
    requires |c| == 7 && |lower| == 7
    requires forall k :: 0 <= k < 7 ==> LowerChar(c[k]) == lower[k]
    ensures ToLower(c) == lower
  {
  }

  /** Upper-case spellings of the dark colours are dark too. */
  lemma UpperCaseDarkColour()
    ensures IsDark("#1E293B") && IsDark("#0F172A") && !IsDark("#2563EB")
  {
    LowerColour("#1E293B", "#1e293b");
    LowerColour("#0F172A", "#0f172a");
    LowerColour("#2563EB", "#2563eb");
  }

  /** Text and button colours depend only on whether the background is dark. */
  lemma ColoursFollowDarkness(p: UserProfile, q: UserProfile)
    requires IsDark(BackgroundColor(p)) == IsDark(BackgroundColor(q))
    ensures Render(p).textColor == Render(q).textColor
    ensures Render(p).buttonBackground == Render(q).buttonBackground
    ensures Render(p).buttonText == Render(q).buttonText
  {
  }

  /** The name and bio fall back to their placeholders only when empty. */
  lemma TextFallbacks(p: UserProfile)
    ensures Render(p).name == (if p.fullName == "" then "Your Name" else p.fullName)
    ensures Render(p).bio == (if p.bio == "" then "Add a bio to tell people who you are." else p.bio)
    ensures Render(p).name != "" && Render(p).bio != ""
  {
  }
}

=== FILE: dashboard.dfy ===
/**
 * The profile editor: its working copy, the link-list operations, the
 * username normaliser, the new-user fallback when loading, and save.
 * Every edit changes only the working copy; storage changes only on save.
 */
module Dashboard {
  import opened Values
  import opened Text
  import opened Types
  import opened SupabaseClient
  import Card
  import App

  /** The preset theme colours offered by the editor. */
  const Palette: seq<string> :=
    ["#000000", "#2563EB", "#7C3AED", "#DB2777", "#DC2626", "#D97706", "#059669", "#475569"]

  const InitialProfile := UserProfile("", "", "", "", "", "#000000", [], None)

  // ---------------------------------------------------------------------
  // Link list operations
  // ---------------------------------------------------------------------

  /** Appends a new, empty, visible link with the given fresh id. */
  function AddLink(p: UserProfile, freshId: string): UserProfile
  {
    p.(links := p.links + [LinkItem(freshId, "", "", true)])
  }

  /** `links.filter(l => l.id !== id)`. */
  function WithoutId(links: seq<LinkItem>, id: string): seq<LinkItem>
  {
    if links == [] then []
    else (if links[0].id != id then [links[0]] else []) + WithoutId(links[1..], id)
  }

  function RemoveLink(p: UserProfile, id: string): UserProfile
  {
    p.(links := WithoutId(p.links, id))
  }

  /** One field of a link and its new value (`{...l, [field]: value}`). */
  datatype LinkEdit = SetId(id: string) | SetTitle(title: string) | SetUrl(url: string) | SetActive(active: bool)

  function ApplyEdit(l: LinkItem, e: LinkEdit): LinkItem
  {
    match e
    case SetId(v) => l.(id := v)
    case SetTitle(v) => l.(title := v)
    case SetUrl(v) => l.(url := v)
    case SetActive(v) => l.(active := v)
  }

  /** `links.map(l => l.id === id ? {...l, [field]: value} : l)`. */
  function EditLinks(links: seq<LinkItem>, id: string, e: LinkEdit): seq<LinkItem>
  {
    if links == [] then []
    else [if links[0].id == id then ApplyEdit(links[0], e) else links[0]] + EditLinks(links[1..], id, e)
  }

  function UpdateLink(p: UserProfile, id: string, e: LinkEdit): UserProfile
  {
    p.(links := EditLinks(p.links, id, e))
  }

  /** Adding appends exactly one empty visible link and changes nothing else. */
  lemma AddLinkSpec(p: UserProfile, freshId: string)
    ensures |AddLink(p, freshId).links| == |p.links| + 1
    ensures AddLink(p, freshId).links[..|p.links|] == p.links
    ensures AddLink(p, freshId).links[|p.links|] == LinkItem(freshId, "", "", true)
    ensures AddLink(p, freshId).(links := p.links) == p
  {
  }

  /** Removal keeps order: it distributes over concatenation. */
  lemma {:induction false} WithoutIdAppend(a: seq<LinkItem>, b: seq<LinkItem>, id: string)
    ensures WithoutId(a + b, id) == WithoutId(a, id) + WithoutId(b, id)
  {
    if a == [] {
      assert a + b == b;
    } else {
      var head := if a[0].id != id then [a[0]] else [];
      calc {
        WithoutId(a + b, id);
        { assert (a + b)[0] == a[0] && (a + b)[1..] == a[1..] + b; }
        head + WithoutId(a[1..] + b, id);
        { WithoutIdAppend(a[1..], b, id); }
        head + (WithoutId(a[1..], id) + WithoutId(b, id));
      }
    }
  }

  /** Removal keeps exactly the links with a different id. */
  lemma {:induction false} WithoutIdMembership(links: seq<LinkItem>, id: string, l: LinkItem)
    ensures l in WithoutId(links, id) <==> l in links && l.id != id
  {
    if links != [] {
      WithoutIdMembership(links[1..], id, l);
      assert links == [links[0]] + links[1..];
    }
  }

  /** Removing an id no link carries changes nothing. */
  lemma {:induction false} WithoutAbsentId(links: seq<LinkItem>, id: string)
    requires forall i :: 0 <= i < |links| ==> links[i].id != id
    ensures WithoutId(links, id) == links
  {
    if links != [] {
      WithoutAbsentId(links[1..], id);
      assert links == [links[0]] + links[1..];
    }
  }

  /** `removeLink` keeps exactly the other links, in order, and no other field changes. */
  lemma RemoveLinkSpec(p: UserProfile, id: string)
    ensures forall l :: l in RemoveLink(p, id).links <==> l in p.links && l.id != id
    ensures forall l :: l in RemoveLink(p, id).links ==> l.id != id
    ensures RemoveLink(p, id).(links := p.links) == p
  {
    forall l {
      WithoutIdMembership(p.links, id, l);
    }
  }

  /** Adding a link and removing it again restores the profile, if its id was fresh. */
  lemma AddThenRemove(p: UserProfile, freshId: string)
    requires forall i :: 0 <= i < |p.links| ==> p.links[i].id != freshId
    ensures RemoveLink(AddLink(p, freshId), freshId) == p
  {
    var added := LinkItem(freshId, "", "", true);
    WithoutIdAppend(p.links, [added], freshId);
    WithoutAbsentId(p.links, freshId);
    assert WithoutId([added], freshId) == [];
  }

  /** Each edit sets its own field and leaves the link's other fields as they were. */
  lemma ApplyEditSpec(l: LinkItem, e: LinkEdit)
    ensures ApplyEdit(l, e).id == (if e.SetId? then e.id else l.id)
    ensures ApplyEdit(l, e).title == (if e.SetTitle? then e.title else l.title)
    ensures ApplyEdit(l, e).url == (if e.SetUrl? then e.url else l.url)
    ensures ApplyEdit(l, e).active == (if e.SetActive? then e.active else l.active)
  {
  }

  /**
   * `updateLink` keeps length and order, edits every link with the id and
   * leaves every other link, and every other profile field, unchanged.
   */
  lemma {:induction false} UpdateLinkSpec(p: UserProfile, id: string, e: LinkEdit)
    ensures |UpdateLink(p, id, e).links| == |p.links|
    ensures forall i :: 0 <= i < |p.links| ==>
              UpdateLink(p, id, e).links[i] == if p.links[i].id == id then ApplyEdit(p.links[i], e) else p.links[i]
    ensures UpdateLink(p, id, e).(links := p.links) == p
  {
    EditLinksSpec(p.links, id, e);
  }

  lemma {:induction false} EditLinksSpec(links: seq<LinkItem>, id: string, e: LinkEdit)
    ensures |EditLinks(links, id, e)| == |links|
    ensures forall i :: 0 <= i < |links| ==>
              EditLinks(links, id, e)[i] == if links[i].id == id then ApplyEdit(links[i], e) else links[i]
  {
    if links != [] {
      EditLinksSpec(links[1..], id, e);
    }
  }

  // ---------------------------------------------------------------------
  // Username
  // ---------------------------------------------------------------------

  /** `value.toLowerCase().replace(/\s/g, '')`. */
  function NormalizeUsername(s: string): string
  {
    RemoveWhitespace(ToLower(s))
  }

  /** Lower-casing never turns a character into whitespace or out of it. */
  lemma {:induction false} RemoveWhitespaceToLower(s: string)
    ensures RemoveWhitespace(ToLower(s)) == ToLower(RemoveWhitespace(s))
  {
    if s != [] {
      RemoveWhitespaceToLower(s[1..]);
      assert ToLower(s)[1..] == ToLower(s[1..]);
      if !IsWhitespace(s[0]) {
        assert ToLower([s[0]] + RemoveWhitespace(s[1..])) == [LowerChar(s[0])] + ToLower(RemoveWhitespace(s[1..]));
      }
    }
  }

  /** A normalised username has no whitespace and no upper-case ASCII letter. */
  lemma NormalizedIsClean(s: string)
    ensures forall c :: c in NormalizeUsername(s) ==> !IsWhitespace(c) && !IsUpperAscii(c)
  {
    RemoveWhitespaceSpec(ToLower(s));
  }

  /** Normalising twice is normalising once. */
  lemma NormalizeIdempotent(s: string)
    ensures NormalizeUsername(NormalizeUsername(s)) == NormalizeUsername(s)
  {
    var n := NormalizeUsername(s);
    NormalizedIsClean(s);
    assert forall i :: 0 <= i < |n| ==> n[i] in n;
    assert ToLower(n) == n;
    RemoveWhitespaceSpec(n);
  }

  /** A username is left as it is exactly when it is already clean. */
  lemma NormalizeFixedPoints(s: string)
    ensures NormalizeUsername(s) == s <==> forall c :: c in s ==> !IsWhitespace(c) && !IsUpperAscii(c)
  {
    NormalizedIsClean(s);
    if forall c :: c in s ==> !IsWhitespace(c) && !IsUpperAscii(c) {
      assert forall i :: 0 <= i < |s| ==> s[i] in s;
      assert ToLower(s) == s;
      RemoveWhitespaceSpec(s);
    }
  }

  // ---------------------------------------------------------------------
  // Loading the profile
  // ---------------------------------------------------------------------

  /** `email?.split('@')[0] || 'user'`. */
  function NewUserUsername(email: Option<string>): string
  {
    if email.Some? && BeforeFirst(email.value, '@') != "" then BeforeFirst(email.value, '@') else "user"
  }

  /**
   * The derived username is never empty and never contains `@`. Unless it is
   * the fallback `user`, it is the whole local part: a prefix of the e-mail
   * that runs to its end or to its first `@`. The fallback is taken when
   * there is no e-mail or its local part is empty.
   */
  lemma NewUserUsernameSpec(email: Option<string>)
    ensures NewUserUsername(email) != "" && '@' !in NewUserUsername(email)
    ensures email.Some? && NewUserUsername(email) != "user" ==>
              var r := NewUserUsername(email);
              r <= email.value && (|r| == |email.value| || email.value[|r|] == '@')
    ensures email.None? || email == Some("") || (|email.value| > 0 && email.value[0] == '@') ==>
              NewUserUsername(email) == "user"
    ensures forall l ::
              (email.Some? && l != "" && '@' !in l && l <= email.value
               && (|l| == |email.value| || email.value[|l|] == '@'))
              ==> NewUserUsername(email) == l
  {
    if email.Some? {
      var e := email.value;
      var b := BeforeFirst(e, '@');
      BeforeFirstSpec(e, '@');
      forall l | l != "" && '@' !in l && l <= e && (|l| == |e| || e[|l|] == '@')
        ensures NewUserUsername(email) == l
      {
        LocalPartUnique(e, b, l);
      }
    }
  }

  /** Two `@`-free prefixes that each run to the end or to an `@` are the same. */
  lemma LocalPartUnique(e: string, b: string, l: string)
    requires '@' !in b && b <= e && (|b| == |e| || e[|b|] == '@')
    requires '@' !in l && l <= e && (|l| == |e| || e[|l|] == '@')
    ensures b == l
  {
  }

  function NewUserProfile(userId: string, email: Option<string>): UserProfile
  {
    InitialProfile.(id := userId, username := NewUserUsername(email))
  }

  /**
   * The profile after `fetchProfile`: any error but not-found keeps the
   * previous profile; a row replaces it; no row seeds a new-user profile.
   * A row that does not read as a profile also keeps the previous one.
   */
  function FetchedProfile(prev: UserProfile, r: Response, userId: string, email: Option<string>): UserProfile
  {
    if r.error.Some? && r.error.value.code != NotFoundCode then prev
    else if r.data.One? then
      match ProfileOfRecord(r.data.row)
      case Some(p) => p
      case None => prev
    else NewUserProfile(userId, email)
  }

  /** Not found seeds the initial profile with the account's id and derived username. */
  lemma FetchNotFoundSeeds(prev: UserProfile, userId: string, email: Option<string>)
    ensures var p := FetchedProfile(prev, Response(NoData, Some(NotFound)), userId, email);
            p.id == userId && p.username == NewUserUsername(email) && p.username != ""
            && p.(id := "", username := "") == InitialProfile
  {
    NewUserUsernameSpec(email);
  }

  /** Any other error leaves the previous profile in place. */
  lemma FetchOtherErrorKeeps(prev: UserProfile, d: Payload, e: QueryError, userId: string, email: Option<string>)
    requires e.code != NotFoundCode
    ensures FetchedProfile(prev, Response(d, Some(e)), userId, email) == prev
  {
  }

  /** Over the mock, when no stored row has the account's id the lookup seeds the new-user profile. */
  lemma FetchFromStorage(prev: UserProfile, rows: seq<Record>, userId: string, email: Option<string>)
    ensures var f := Filter("id", Str(userId));
            var p := FetchedProfile(prev, Answer(rows, Some(f), true), userId, email);
            (forall j :: 0 <= j < |rows| ==> !Satisfies(rows[j], f)) ==> p == NewUserProfile(userId, email)
  {
    SingleNotFound(rows, Filter("id", Str(userId)));
  }

  /** Over the mock, the lookup by id loads the first stored row with that id, whatever follows it. */
  lemma FetchLoadsFirstRow(prev: UserProfile, rows: seq<Record>, userId: string, email: Option<string>, i: nat, q: UserProfile)
    requires i < |rows| && Satisfies(rows[i], Filter("id", Str(userId)))
    requires forall j :: 0 <= j < i ==> !Satisfies(rows[j], Filter("id", Str(userId)))
    requires ProfileOfRecord(rows[i]) == Some(q)
    ensures FetchedProfile(prev, Answer(rows, Some(Filter("id", Str(userId))), true), userId, email) == q
  {
    SingleReturnsFirstMatch(rows, Filter("id", Str(userId)), i);
  }

  // ---------------------------------------------------------------------
  // Edits and save
  // ---------------------------------------------------------------------

  /** The editor's `setProfile` handlers. */
  datatype Change =
    | UsernameTyped(input: string)
    | FullNameTyped(fullName: string)
    | BioTyped(bio: string)
    | AvatarUrlTyped(avatarUrl: string)
    | ThemeColorPicked(color: string)
    | AddLinkClicked(freshId: string)
    | RemoveLinkClicked(id: string)
    | LinkChanged(id: string, edit: LinkEdit)

  function Changed(p: UserProfile, c: Change): UserProfile
  {
    match c
    case UsernameTyped(s) => p.(username := NormalizeUsername(s))
    case FullNameTyped(s) => p.(fullName := s)
    case BioTyped(s) => p.(bio := s)
    case AvatarUrlTyped(s) => p.(avatarUrl := s)
    case ThemeColorPicked(s) => p.(themeColor := s)
    case AddLinkClicked(freshId) => AddLink(p, freshId)
    case RemoveLinkClicked(id) => RemoveLink(p, id)
    case LinkChanged(id, e) => UpdateLink(p, id, e)
  }

  /** No change touches the profile's id or its save stamp. */
  lemma ChangeKeepsIdentity(p: UserProfile, c: Change)
    ensures Changed(p, c).id == p.id && Changed(p, c).updatedAt == p.updatedAt
  {
  }

  /** The row `handleSave` upserts: the whole working copy, stamped. */
  function SaveRecord(p: UserProfile, now: string): Record
  {
    ProfileToRecord(p.(updatedAt := Some(now)))
  }

  /** The saved row differs from the working copy's row only in `updated_at`. */
  lemma SaveRecordSpec(p: UserProfile, now: string)
    ensures SaveRecord(p, now).Keys == ProfileToRecord(p).Keys + {"updated_at"}
    ensures SaveRecord(p, now)["updated_at"] == Str(now)
    ensures forall k :: k in ProfileToRecord(p) && k != "updated_at" ==> SaveRecord(p, now)[k] == ProfileToRecord(p)[k]
  {
  }

  /** Of the preset colours, only black gets the dark text scheme on the card. */
  lemma OnlyBlackPresetIsDark()
    ensures forall i :: 0 <= i < |Palette| ==> (Card.IsDark(Palette[i]) <==> i == 0)
  {
    forall i | 0 <= i < |Palette|
      ensures Card.IsDark(Palette[i]) <==> i == 0
    {
      var lower := ["#000000", "#2563eb", "#7c3aed", "#db2777", "#dc2626", "#d97706", "#059669", "#475569"];
      PresetLowerCase(i, lower);
      assert lower[i] in Card.DarkBackgrounds <==> i == 0;
    }
  }

  lemma PresetLowerCase(i: nat, lower: seq<string>)
    requires i < |Palette|
    requires lower == ["#000000", "#2563eb", "#7c3aed", "#db2777", "#dc2626", "#d97706", "#059669", "#475569"]
    ensures ToLower(Palette[i]) == lower[i]
  {
    var c := Palette[i];
    assert |c| == 7 && |lower[i]| == 7;
    assert forall k :: 0 <= k < 7 ==> LowerChar(c[k]) == lower[i][k];
  }

  /** The fragment of the link `copyToClipboard` and "view live" point at. */
  function ShareFragment(username: string): string
  {
    App.PublicPrefix + username
  }

  /**
   * The shared link opens the public profile exactly when the username is
   * non-empty and free of `/`; the normaliser removes neither case, so a
   * username typed as `A/B` gives a link that opens the sign-in page or the
   * dashboard instead.
   */
  lemma ShareLinkOpensProfile(username: string)
    ensures App.PublicProfileMatch(ShareFragment(username)) == Some(username) <==> username != "" && '/' !in username
    ensures App.PublicProfileMatch(ShareFragment(NormalizeUsername("A/B"))) == None
  {
    App.PublicProfileMatchSpec(ShareFragment(username), username);
    var n := NormalizeUsername("A/B");
    assert ToLower("A/B") == "a/b";
    assert n == "a/b";
    App.PublicProfileMatchSpec(ShareFragment(n), n);
    assert ShareFragment(n)[5] == '/';
    assert ShareFragment(n)[4..][1] == '/';
  }

  datatype Message = SaveSucceeded | SaveFailed(text: string)

  /** The editor's state: the working copy and its status flags. */
  class Editor {
    const store: LocalStore
    var profile: UserProfile
    var loading: bool
    var saving: bool
    var message: Option<Message>

    constructor (store: LocalStore)
      ensures this.store == store
      ensures profile == InitialProfile && loading && !saving && message == None
    {
      this.store := store;
      profile := InitialProfile;
      loading := true;
      saving := false;
      message := None;
    }

    /** `fetchProfile`: looks the account's row up by id; storage is only read. */
    method FetchProfile(userId: string, email: Option<string>)
      modifies this`profile, this`loading
      ensures !loading
      ensures profile == FetchedProfile(old(profile),
                Answer(Load(store.tables, ProfilesTable), Some(Filter("id", Str(userId))), true), userId, email)
    {
      loading := true;
      var q := new QueryBuilder(store, ProfilesTable);
      q.Eq("id", Str(userId));
      var r := q.Single();
      if r.error.Some? && r.error.value.code != NotFoundCode {
        // the error is logged and the previous profile stays
      } else if r.data.One? {
        match ProfileOfRecord(r.data.row)
        case Some(p) => profile := p;
        case None =>
      } else {
        profile := NewUserProfile(userId, email);
      }
      loading := false;
    }

    /** A `setProfile` handler: only the working copy changes. */
    method Change(c: Change)
      modifies this`profile
      ensures profile == Changed(old(profile), c)
    {
      profile := Changed(profile, c);
    }

    /** `handleSave`: upserts the stamped working copy; the mock never reports an error. */
    method HandleSave(now: string)
      modifies this`saving, this`message, store`tables
      ensures store.tables == old(store.tables)[StorageKey(ProfilesTable) :=
                Upserted(Load(old(store.tables), ProfilesTable), SaveRecord(profile, now))]
      ensures message == Some(SaveSucceeded) && !saving
    {
      saving := true;
      message := None;
      var updates := SaveRecord(profile, now);
      var q := new QueryBuilder(store, ProfilesTable);
      var r := q.Upsert(updates);
      var outcome := match r.error
        case Some(e) => SaveFailed(e.message)
        case None => SaveSucceeded;
      message := Some(outcome);
      saving := false;
    }
  }

  /** Adding then removing a link before saving leaves both the editor and storage as they were. */
  method AddThenRemoveBeforeSave(editor: Editor, freshId: string)
    requires forall i :: 0 <= i < |editor.profile.links| ==> editor.profile.links[i].id != freshId
    modifies editor
    ensures editor.profile == old(editor.profile)
    ensures editor.store.tables == old(editor.store.tables)
  {
    editor.Change(AddLinkClicked(freshId));
    editor.Change(RemoveLinkClicked(freshId));
    AddThenRemove(old(editor.profile), freshId);
  }

  /** Saving and then loading again gives back the saved copy, stamped. */
  method SaveThenReload(editor: Editor, now: string, email: Option<string>)
    modifies editor, editor.store
    ensures editor.profile == old(editor.profile).(updatedAt := Some(now))
  {
    var saved := editor.profile.(updatedAt := Some(now));
    var before := Load(editor.store.tables, ProfilesTable);
    editor.HandleSave(now);
    assert Load(editor.store.tables, ProfilesTable) == Upserted(before, ProfileToRecord(saved));
    SavedProfileReadsBack(before, saved);
    editor.FetchProfile(saved.id, email);
  }
}

=== FILE: public_profile.dfy ===
/**
 * The public viewer: the username it shows, the lookup by username and its
 * not-found state, and the contact card it offers for download (vCard 3.0,
 * RFC 2426).
 */
module PublicProfile {
  import opened Values
  import opened Text
  import opened Types
  import opened SupabaseClient
  import App

  // ---------------------------------------------------------------------
  // Username from the fragment
  // ---------------------------------------------------------------------

  /** `hash.split('/')`, keeping the third part when the second is `u`. */
  function HashUsername(hash: string): Option<string>
  {
    var parts := Split(hash, '/');
    if |parts| >= 3 && parts[1] == "u" then Some(parts[2]) else None
  }

  /** How `#/u/<name>/<rest>` splits when the name has no `/`. */
  lemma SplitProfileHash(name: string, rest: string)
    requires '/' !in name
    ensures Split(App.PublicPrefix + name + "/" + rest, '/') == ["#", "u", name] + Split(rest, '/')
  {
    var s := App.PublicPrefix + name + "/" + rest;
    assert s == "#" + ['/'] + ("u" + ['/'] + (name + ['/'] + rest));
    SplitAfterPrefix(name, '/', rest);
    SplitAfterPrefix("u", '/', name + ['/'] + rest);
    SplitAfterPrefix("#", '/', "u" + ['/'] + (name + ['/'] + rest));
  }

  /** Whenever the router matches, the fallback parse finds the same name. */
  lemma FallbackAgreesWithRouter(route: string, name: string)
    requires App.PublicProfileMatch(route) == Some(name)
    ensures HashUsername(route) == Some(name)
  {
    App.PublicProfileMatchSpec(route, name);
    var s := App.PublicPrefix + name;
    assert s == "#" + ['/'] + ("u" + ['/'] + name);
    SplitWithoutSeparator(name, '/');
    SplitAfterPrefix("u", '/', name);
    SplitAfterPrefix("#", '/', "u" + ['/'] + name);
  }

  /**
   * The fallback is looser than the router: it takes the first segment of a
   * longer path, and an empty name, where the router matches neither.
   */
  lemma FallbackIsLooser(name: string, rest: string)
    requires '/' !in name
    ensures HashUsername(App.PublicPrefix + name + "/" + rest) == Some(name)
    ensures App.PublicProfileMatch(App.PublicPrefix + name + "/" + rest) == None
    ensures HashUsername(App.PublicPrefix) == Some("")
    ensures App.PublicProfileMatch(App.PublicPrefix) == None
  {
    SplitProfileHash(name, rest);
    var s := App.PublicPrefix + name + "/" + rest;
    assert s[|App.PublicPrefix|..][|name|] == '/';
    SplitProfileHash("", "");
    assert App.PublicPrefix + "" + "/" + "" == App.PublicPrefix + "/";
    assert Split(App.PublicPrefix, '/') == ["#", "u", ""] by {
      assert App.PublicPrefix == "#" + ['/'] + ("u" + ['/'] + "");
      SplitAfterPrefix("u", '/', "");
      SplitAfterPrefix("#", '/', "u" + ['/'] + "");
    }
  }

  // ---------------------------------------------------------------------
  // The viewer's states
  // ---------------------------------------------------------------------

  const ProfileNotFound := "Profile not found"

  datatype Screen =
    | Skeleton
    | NotFoundScreen(profileNotFound: bool)
    | CardScreen(profile: UserProfile)

  /** Loading first, then the 404 state on an error or a missing profile, then the card. */
  function ScreenOf(loading: bool, error: Option<string>, profile: Option<UserProfile>): Screen
  {
    if loading then Skeleton
    else if error.Some? || profile.None? then NotFoundScreen(error == Some(ProfileNotFound))
    else CardScreen(profile.value)
  }

  /** The lookup's effect on `(error, profile)`: any error becomes `Profile not found`. */
  function LookedUp(r: Response, error: Option<string>, profile: Option<UserProfile>): (Option<string>, Option<UserProfile>)
  {
    if r.error.Some? then (Some(ProfileNotFound), profile)
    else if r.data.One? then (error, ProfileOfRecord(r.data.row))
    else (error, None)
  }

  /** Every failed lookup, not-found included, ends in the 404 state with the not-found message. */
  lemma LookupErrorShowsNotFound(r: Response, error: Option<string>, profile: Option<UserProfile>)
    requires r.error.Some?
    ensures var (e, p) := LookedUp(r, error, profile);
            ScreenOf(false, e, p) == NotFoundScreen(true)
  {
  }

  /** Over the mock, the viewer shows the first row with the username; later rows with it are ignored. */
  lemma LookupOverStorage(rows: seq<Record>, name: string, i: nat)
    requires i < |rows| && Satisfies(rows[i], Filter("username", Str(name)))
    requires forall j :: 0 <= j < i ==> !Satisfies(rows[j], Filter("username", Str(name)))
    requires ProfileOfRecord(rows[i]).Some?
    ensures var (e, p) := LookedUp(Answer(rows, Some(Filter("username", Str(name))), true), None, None);
            ScreenOf(false, e, p) == CardScreen(ProfileOfRecord(rows[i]).value)
  {
    SingleReturnsFirstMatch(rows, Filter("username", Str(name)), i);
  }

  /** The viewer component's state. */
  class Viewer {
    const store: LocalStore
    var username: Option<string>
    var profile: Option<UserProfile>
    var loading: bool
    var error: Option<string>

    /** `useState(propUsername || null)`, and the other initial states. */
    constructor (store: LocalStore, propUsername: Option<string>)
      ensures this.store == store
      ensures username == (if Truthy(propUsername) then propUsername else None)
      ensures profile == None && loading && error == None
    {
      this.store := store;
      username := if Truthy(propUsername) then propUsername else None;
      profile := None;
      loading := true;
      error := None;
    }

    /** The first effect: without a usable name, take one from the fragment if it has the shape. */
    method ResolveUsername(hash: string)
      modifies this`username
      ensures username == if !Truthy(old(username)) && HashUsername(hash).Some? then HashUsername(hash) else old(username)
    {
      if !Truthy(username) {
        var parsed := HashUsername(hash);
        if parsed.Some? {
          username := parsed;
        }
      }
    }

    /** `fetchProfile(uName)`: the lookup by username. */
    method FetchProfile(uName: string)
      modifies this`loading, this`error, this`profile
      ensures !loading
      ensures (error, profile)
           == LookedUp(Answer(Load(store.tables, ProfilesTable), Some(Filter("username", Str(uName))), true),
                       old(error), old(profile))
    {
      loading := true;
      var q := new QueryBuilder(store, ProfilesTable);
      q.Eq("username", Str(uName));
      var r := q.Single();
      if r.error.Some? {
        error := Some(ProfileNotFound);
      } else {
        profile := match r.data
          case One(row) => ProfileOfRecord(row)
          case _ => None;
      }
      loading := false;
    }

    /** Both effects in order; the lookup runs only for a non-empty name. */
    method Mount(hash: string)
      modifies this`username, this`loading, this`error, this`profile
      ensures username == if !Truthy(old(username)) && HashUsername(hash).Some? then HashUsername(hash) else old(username)
      ensures !Truthy(username) ==> loading == old(loading) && error == old(error) && profile == old(profile)
      ensures Truthy(username) ==>
                !loading && (error, profile)
                == LookedUp(Answer(Load(store.tables, ProfilesTable), Some(Filter("username", Str(username.value))), true),
                            old(error), old(profile))
    {
      ResolveUsername(hash);
      if Truthy(username) {
        FetchProfile(username.value);
      }
    }
  }

  /**
   * Opening `#/u/<name>`: the router's name is used as is; the screen is the
   * card of the first row with that username, or the not-found state.
   */
  method OpenPublicProfile(store: LocalStore, route: string, name: string) returns (screen: Screen)
    requires App.PublicProfileMatch(route) == Some(name)
    ensures var r := Answer(Load(store.tables, ProfilesTable), Some(Filter("username", Str(name))), true);
            screen == if r.error.Some? then NotFoundScreen(true)
                      else if ProfileOfRecord(r.data.row).Some? then CardScreen(ProfileOfRecord(r.data.row).value)
                      else NotFoundScreen(false)
  {
    App.PublicProfileMatchSpec(route, name);
    var viewer := new Viewer(store, Some(name));
    viewer.Mount(route);
    screen := ScreenOf(viewer.loading, viewer.error, viewer.profile);
  }

  /** Without a usable name the lookup never runs and the skeleton stays. */
  method MountWithoutName(store: LocalStore, hash: string) returns (screen: Screen)
    requires HashUsername(hash).None? || HashUsername(hash) == Some("")
    ensures screen == Skeleton
  {
    var viewer := new Viewer(store, None);
    viewer.Mount(hash);
    screen := ScreenOf(viewer.loading, viewer.error, viewer.profile);
  }

  // ---------------------------------------------------------------------
  // Contact card
  // ---------------------------------------------------------------------

  /** The photo line (section 3.1.4 of RFC 2426), or an empty line without an avatar. */
  function PhotoLine(avatarUrl: string): string
  {
    if avatarUrl != "" then "PHOTO;VALUE=URI:" + avatarUrl else ""
  }

  /**
   * The card's lines: FN (section 3.1.1 of RFC 2426), NOTE (section 3.6.2),
   * URL (section 3.6.8) and the photo line, values inserted without the
   * escaping section 4 asks for.
   */
  function VCardLines(p: UserProfile, href: string): seq<string>
  {
    ["BEGIN:VCARD", "VERSION:3.0", "FN:" + p.fullName, "NOTE:" + p.bio, "URL:" + href,
     PhotoLine(p.avatarUrl), "END:VCARD"]
  }

  /** The vCard text: the template's lines separated by line breaks. */
  function VCard(p: UserProfile, href: string): string
  {
    Join(VCardLines(p, href), '\n')
  }

  datatype Download = Download(fileName: string, text: string)

  /** `downloadVCard`: nothing without a profile; otherwise `<username>.vcf` with the card text. */
  function DownloadVCard(profile: Option<UserProfile>, href: string): Option<Download>
  {
    match profile
    case None => None
    case Some(p) => Some(Download(p.username + ".vcf", VCard(p, href)))
  }

  /** The file is named after the username, and holds the card text. */
  lemma DownloadSpec(p: UserProfile, href: string)
    ensures DownloadVCard(Some(p), href).Some?
    ensures DownloadVCard(Some(p), href).value.fileName == p.username + ".vcf"
    ensures DownloadVCard(Some(p), href).value.text[..11] == "BEGIN:VCARD"
    ensures DownloadVCard(None, href) == None
  {
  }

  predicate NoLineBreak(s: string)
  {
    '\n' !in s
  }

  /**
   * When no value holds a line break, the card is exactly seven lines:
   * BEGIN, VERSION, FN, NOTE, URL, the photo or empty line, and END.
   */
  lemma VCardLinesSpec(p: UserProfile, href: string)
    requires NoLineBreak(p.fullName) && NoLineBreak(p.bio) && NoLineBreak(href) && NoLineBreak(p.avatarUrl)
    ensures Split(VCard(p, href), '\n') == VCardLines(p, href)
  {
    var ls := VCardLines(p, href);
    assert forall i :: 0 <= i < |ls| ==> '\n' !in ls[i];
    SplitJoin(ls, '\n');
  }

  /**
   * Values are not escaped: a bio holding a line break splits the NOTE line
   * in two, so the card gets an eighth line holding what followed the break
   * (a bio `x\nEND:VCARD` ends the card right after the NOTE line).
   */
  lemma UnescapedBioEndsCardEarly(p: UserProfile, href: string, x: string, y: string)
    requires p.bio == x + "\n" + y
    requires NoLineBreak(x) && NoLineBreak(y)
    requires NoLineBreak(p.fullName) && NoLineBreak(href) && NoLineBreak(p.avatarUrl)
    ensures |Split(VCard(p, href), '\n')| == 8
    ensures Split(VCard(p, href), '\n')[3] == "NOTE:" + x
    ensures Split(VCard(p, href), '\n')[4] == y
  {
    var ls := VCardLines(p, href);
    var before, after := ls[..3], ls[4..];
    assert ls[3] == ("NOTE:" + x) + ['\n'] + y;
    assert ls == before + [ls[3]] + after;
    JoinSplitsPart(before, "NOTE:" + x, y, after, '\n');
    var spliced := before + ["NOTE:" + x, y] + after;
    assert forall i :: 0 <= i < |spliced| ==> '\n' !in spliced[i];
    SplitJoin(spliced, '\n');
  }

}

=== FILE: supabase_client.dfy ===
/**
 * The in-browser stand-in for the hosted backend: a per-table row store kept
 * in local storage, a query builder with one equality filter, `single`,
 * `upsert` and `execute`, and a session store for sign-in, sign-up and
 * sign-out. Local storage is modelled as already-parsed values.
 */
module SupabaseClient {
  import opened Values
  import opened Text
  import opened Types

  // ---------------------------------------------------------------------
  // Client selection
  // ---------------------------------------------------------------------

  const PlaceholderUrl := "https://your-project.supabase.co"

  datatype ClientKind = RealClient | MockClient

  /** A configuration value is truthy when it is present and not empty. */
  predicate Truthy(v: Option<string>)
  {
    v.Some? && v.value != ""
  }

  /** Both values present, and the URL is not the placeholder. */
  predicate IsConfigured(url: Option<string>, key: Option<string>)
  {
    Truthy(url) && url.value != PlaceholderUrl && Truthy(key)
  }

  function SelectClient(url: Option<string>, key: Option<string>): ClientKind
  {
    if IsConfigured(url, key) then RealClient else MockClient
  }

  /** The mock is used exactly when a value is missing or empty or the URL is the placeholder. */
  lemma MockWhenUnconfigured(url: Option<string>, key: Option<string>)
    ensures SelectClient(url, key) == MockClient
        <==> url == None || url == Some("") || url == Some(PlaceholderUrl) || key == None || key == Some("")
  {
  }

  // ---------------------------------------------------------------------
  // Storage
  // ---------------------------------------------------------------------

  /** The local-storage key of a table. */
  function StorageKey(table: string): string
  {
    "sb-mock-" + table
  }

  /** The rows of a table; a table never written reads as empty. */
  function Load(tables: map<string, seq<Record>>, table: string): seq<Record>
  {
    if StorageKey(table) in tables then tables[StorageKey(table)] else []
  }

  datatype User = User(id: string, email: string)

  datatype Session = Session(user: User)

  /** The browser's local storage as the mock sees it. */
  class LocalStore {
    /** Parsed tables, by storage key. */
    var tables: map<string, seq<Record>>
    /** The signed-in user, kept under `sb-mock-user`. */
    var sessionUser: Option<User>

    constructor ()
      ensures tables == map[] && sessionUser == None
    {
      tables := map[];
      sessionUser := None;
    }
  }

  // ---------------------------------------------------------------------
  // Query semantics
  // ---------------------------------------------------------------------

  datatype Filter = Filter(column: string, value: Value)

  /** `item[col] === val`; an absent column never matches a value. */
  predicate Satisfies(row: Record, f: Filter)
  {
    StrictEqualsOpt(Get(row, f.column), Some(f.value))
  }

  /** `rows.filter(item => item[col] === val)`. */
  function Filtered(rows: seq<Record>, f: Filter): seq<Record>
  {
    if rows == [] then []
    else (if Satisfies(rows[0], f) then [rows[0]] else []) + Filtered(rows[1..], f)
  }

  /** The rows a query sees: all of them, or those satisfying its filter. */
  function Matching(rows: seq<Record>, filter: Option<Filter>): seq<Record>
  {
    match filter
    case None => rows
    case Some(f) => Filtered(rows, f)
  }

  datatype QueryError = QueryError(code: string, message: string)

  const NotFoundCode := "PGRST116"
  const NotFound := QueryError(NotFoundCode, "Row not found")

  /** The `data` of a response: `null`, one row, or an array of rows. */
  datatype Payload = NoData | One(row: Record) | Many(rows: seq<Record>)

  datatype Response = Response(data: Payload, error: Option<QueryError>)

  /** What `execute(single)` answers over a snapshot and a filter. */
  function Answer(rows: seq<Record>, filter: Option<Filter>, single: bool): Response
  {
    var result := Matching(rows, filter);
    if !single then Response(Many(result), None)
    else if result == [] then Response(NoData, Some(NotFound))
    else Response(One(result[0]), None)
  }

  /** Filtering distributes over concatenation: the result keeps table order. */
  lemma {:induction false} FilteredAppend(a: seq<Record>, b: seq<Record>, f: Filter)
    ensures Filtered(a + b, f) == Filtered(a, f) + Filtered(b, f)
  {
    if a == [] {
      assert a + b == b;
    } else {
      FilteredAppend(a[1..], b, f);
      assert (a + b)[0] == a[0] && (a + b)[1..] == a[1..] + b;
    }
  }

  /** A row is in the result exactly when it is in the table and satisfies the filter. */
  lemma {:induction false} FilteredMembership(rows: seq<Record>, f: Filter, x: Record)
    ensures x in Filtered(rows, f) <==> x in rows && Satisfies(x, f)
  {
    if rows != [] {
      FilteredMembership(rows[1..], f, x);
      assert rows == [rows[0]] + rows[1..];
    }
  }

  /** The result is empty exactly when no row satisfies the filter. */
  lemma {:induction false} FilteredEmpty(rows: seq<Record>, f: Filter)
    ensures Filtered(rows, f) == [] <==> forall j :: 0 <= j < |rows| ==> !Satisfies(rows[j], f)
  {
    if rows != [] {
      FilteredEmpty(rows[1..], f);
      assert forall j :: 1 <= j < |rows| ==> rows[j] == rows[1..][j - 1];
    }
  }

  /** The first row of the result is the earliest satisfying row of the table. */
  lemma {:induction false} FilteredFirst(rows: seq<Record>, f: Filter, i: nat)
    requires i < |rows| && Satisfies(rows[i], f)
    requires forall j :: 0 <= j < i ==> !Satisfies(rows[j], f)
    ensures Filtered(rows, f) != [] && Filtered(rows, f)[0] == rows[i]
  {
    if i > 0 {
      assert !Satisfies(rows[0], f);
      FilteredFirst(rows[1..], f, i - 1);
    }
  }

  /** When every row satisfies the filter, the result is the table itself, each row once. */
  lemma {:induction false} FilteredAllSatisfy(rows: seq<Record>, f: Filter)
    requires forall j :: 0 <= j < |rows| ==> Satisfies(rows[j], f)
    ensures Filtered(rows, f) == rows
  {
    if rows != [] {
      FilteredAllSatisfy(rows[1..], f);
      assert rows == [rows[0]] + rows[1..];
    }
  }

  /** Without a filter every row of the snapshot is returned. */
  lemma ExecuteWithoutFilter(rows: seq<Record>)
    ensures Answer(rows, None, false) == Response(Many(rows), None)
  {
  }

  /** `single()` reports `PGRST116` and no data exactly when nothing matches. */
  lemma SingleNotFound(rows: seq<Record>, f: Filter)
    ensures Answer(rows, Some(f), true).error == Some(NotFound)
        <==> forall j :: 0 <= j < |rows| ==> !Satisfies(rows[j], f)
    ensures Answer(rows, Some(f), true).error == Some(NotFound) ==> Answer(rows, Some(f), true).data == NoData
  {
    FilteredEmpty(rows, f);
  }

  /**
   * With at least one match `single()` returns the earliest matching row,
   * unmodified and without error; later matches are not reported.
   */
  lemma SingleReturnsFirstMatch(rows: seq<Record>, f: Filter, i: nat)
    requires i < |rows| && Satisfies(rows[i], f)
    requires forall j :: 0 <= j < i ==> !Satisfies(rows[j], f)
    ensures Answer(rows, Some(f), true) == Response(One(rows[i]), None)
  {
    FilteredFirst(rows, f, i);
  }

  // ---------------------------------------------------------------------
  // Upsert semantics
  // ---------------------------------------------------------------------

  /** `item.id === id`, where `id` may be undefined. */
  predicate SameId(row: Record, id: Option<Value>)
  {
    StrictEqualsOpt(Get(row, "id"), id)
  }

  /** `rows.findIndex(item => item.id === id)`: the first such index, or -1. */
  function IndexOfId(rows: seq<Record>, id: Option<Value>): (i: int)
    ensures -1 <= i < |rows|
    ensures i == -1 <==> forall j :: 0 <= j < |rows| ==> !SameId(rows[j], id)
    ensures i >= 0 ==> SameId(rows[i], id) && forall j :: 0 <= j < i ==> !SameId(rows[j], id)
  {
    if rows == [] then -1
    else if SameId(rows[0], id) then 0
    else
      var k := IndexOfId(rows[1..], id);
      if k == -1 then -1 else k + 1
  }

  /** The table after `upsert(newData)`: merged into the first row with its id, or appended. */
  function Upserted(rows: seq<Record>, newData: Record): seq<Record>
  {
    var i := IndexOfId(rows, Get(newData, "id"));
    if i >= 0 then rows[i := rows[i] + newData] else rows + [newData]
  }

  /** A record whose id no row carries is appended; earlier rows are untouched. */
  lemma UpsertAppendsNew(rows: seq<Record>, newData: Record)
    requires forall j :: 0 <= j < |rows| ==> !SameId(rows[j], Get(newData, "id"))
    ensures |Upserted(rows, newData)| == |rows| + 1
    ensures Upserted(rows, newData)[|rows|] == newData
    ensures Upserted(rows, newData)[..|rows|] == rows
  {
  }

  /**
   * A record whose id the row at `i` carries, and no earlier row does, is
   * merged into that row: its own properties win, the row's other properties
   * stay, and no other row changes.
   */
  lemma UpsertMergesFirst(rows: seq<Record>, newData: Record, i: nat)
    requires i < |rows| && SameId(rows[i], Get(newData, "id"))
    requires forall j :: 0 <= j < i ==> !SameId(rows[j], Get(newData, "id"))
    ensures |Upserted(rows, newData)| == |rows|
    ensures Upserted(rows, newData)[i].Keys == rows[i].Keys + newData.Keys
    ensures forall k :: k in newData ==> Upserted(rows, newData)[i][k] == newData[k]
    ensures forall k :: k in rows[i] && k !in newData ==> Upserted(rows, newData)[i][k] == rows[i][k]
    ensures forall j :: 0 <= j < |rows| && j != i ==> Upserted(rows, newData)[j] == rows[j]
  {
  }

  /**
   * Two upserts with the same string id into an empty table leave one row:
   * the second record's properties over the first's.
   */
  lemma UpsertTwiceSameId(first: Record, second: Record, id: string)
    requires Get(first, "id") == Some(Str(id)) && Get(second, "id") == Some(Str(id))
    ensures Upserted(Upserted([], first), second) == [first + second]
  {
    assert Upserted([], first) == [first];
    assert SameId(first, Get(second, "id"));
  }

  /**
   * Saving then reading back: after upserting a row with a string id, a
   * `single()` lookup by that id returns a row whose properties include every
   * property of the saved record, whatever the table held before.
   */
  lemma {:induction false} UpsertThenSingle(rows: seq<Record>, newData: Record, id: string)
    requires Get(newData, "id") == Some(Str(id))
    ensures Answer(Upserted(rows, newData), Some(Filter("id", Str(id))), true).data.One?
    ensures var row := Answer(Upserted(rows, newData), Some(Filter("id", Str(id))), true).data.row;
            forall k :: k in newData ==> k in row && row[k] == newData[k]
  {
    var f := Filter("id", Str(id));
    var u := Upserted(rows, newData);
    assert forall r: Record :: Satisfies(r, f) == SameId(r, Get(newData, "id"));
    var i := IndexOfId(rows, Get(newData, "id"));
    if i >= 0 {
      FilteredFirst(u, f, i);
    } else {
      assert Satisfies(newData, f);
      FilteredFirst(u, f, |rows|);
    }
  }

  /**
   * The round trip the editor relies on: a stamped profile saved with
   * `upsert` is read back by an `id` lookup as exactly that profile.
   */
  lemma SavedProfileReadsBack(rows: seq<Record>, p: UserProfile)
    requires p.updatedAt.Some?
    ensures var r := Answer(Upserted(rows, ProfileToRecord(p)), Some(Filter("id", Str(p.id))), true);
            r.error == None && r.data.One? && ProfileOfRecord(r.data.row) == Some(p)
  {
    var rec := ProfileToRecord(p);
    UpsertThenSingle(rows, rec, p.id);
    var row := Answer(Upserted(rows, rec), Some(Filter("id", Str(p.id))), true).data.row;
    assert row == (row - rec.Keys) + rec;
    MergedRowReadsAsProfile(row - rec.Keys, p);
  }

  // ---------------------------------------------------------------------
  // The query builder
  // ---------------------------------------------------------------------

  /** `from(table)`: a snapshot of one table and at most one equality filter. */
  class QueryBuilder {
    const table: string
    const store: LocalStore
    var data: seq<Record>
    var filter: Option<Filter>

    /** Reads the table once; later writes to storage are not seen. */
    constructor (store: LocalStore, table: string)
      ensures this.store == store && this.table == table
      ensures data == Load(store.tables, table) && filter == None
    {
      this.store := store;
      this.table := table;
      data := Load(store.tables, table);
      filter := None;
    }

    /** `eq(column, value)`: replaces any earlier filter. */
    method Eq(column: string, value: Value)
      modifies this`filter
      ensures filter == Some(Filter(column, value))
    {
      filter := Some(Filter(column, value));
    }

    /** `execute(single)`: reads the snapshot and changes nothing. */
    method Execute(single: bool) returns (r: Response)
      ensures r == Answer(data, filter, single)
    {
      var result := Matching(data, filter);
      if single {
        if |result| == 0 {
          return Response(NoData, Some(NotFound));
        }
        return Response(One(result[0]), None);
      }
      r := Response(Many(result), None);
    }

    method Single() returns (r: Response)
      ensures r == Answer(data, filter, true)
    {
      r := Execute(true);
    }

    /** `commit()`: writes the whole snapshot back under the table's key. */
    method Commit()
      modifies store`tables
      ensures store.tables == old(store.tables)[StorageKey(table) := data]
    {
      store.tables := store.tables[StorageKey(table) := data];
    }

    /** `upsert(newData)`: merge or append, then commit; it never reports an error. */
    method Upsert(newData: Record) returns (r: Response)
      modifies this`data, store`tables
      ensures data == Upserted(old(data), newData)
      ensures store.tables == old(store.tables)[StorageKey(table) := data]
      ensures r == Response(One(newData), None)
    {
      var index := IndexOfId(data, Get(newData, "id"));
      if index >= 0 {
        data := data[index := data[index] + newData];
      } else {
        data := data + [newData];
      }
      Commit();
      r := Response(One(newData), None);
    }
  }

  /** After `eq(a, x).eq(b, y)` only the second filter applies. */
  method LastFilterWins(store: LocalStore, table: string, a: string, x: Value, b: string, y: Value)
    returns (r: Response)
    ensures r == Answer(Load(store.tables, table), Some(Filter(b, y)), false)
  {
    var q := new QueryBuilder(store, table);
    q.Eq(a, x);
    q.Eq(b, y);
    r := q.Execute(false);
  }

  /** A builder created before a write keeps answering from its old snapshot. */
  method SnapshotIgnoresLaterWrites(store: LocalStore, table: string, newData: Record)
    returns (before: Response, after: Response)
    modifies store
    ensures before == after
    ensures before == Answer(old(Load(store.tables, table)), None, false)
    ensures Load(store.tables, table) == Upserted(old(Load(store.tables, table)), newData)
  {
    var reader := new QueryBuilder(store, table);
    before := reader.Execute(false);
    var writer := new QueryBuilder(store, table);
    var _ := writer.Upsert(newData);
    after := reader.Execute(false);
  }

  // ---------------------------------------------------------------------
  // Authentication
  // ---------------------------------------------------------------------

  /** Every mock account has this id. */
  const MockUserId := "mock-user-id"

  const ProfilesTable := "profiles"

  /** The profile row sign-up seeds: the e-mail's local part as username, no `avatar_url`. */
  function SeedRecord(email: string): Record
  {
    map["id" := Str(MockUserId), "username" := Str(BeforeFirst(email, '@')), "full_name" := Str(""),
        "bio" := Str(""), "links" := Arr([]), "theme_color" := Str("#000000")]
  }

  predicate HasMockProfile(rows: seq<Record>)
  {
    exists j :: 0 <= j < |rows| && Satisfies(rows[j], Filter("id", Str(MockUserId)))
  }

  /** Storage after `signUp(email)`: the seed is appended only when no mock profile exists. */
  function SignedUp(tables: map<string, seq<Record>>, email: string): map<string, seq<Record>>
  {
    var profiles := Load(tables, ProfilesTable);
    if HasMockProfile(profiles) then tables
    else tables[StorageKey(ProfilesTable) := profiles + [SeedRecord(email)]]
  }

  function CountMatching(rows: seq<Record>, f: Filter): nat
  {
    |Filtered(rows, f)|
  }

  /** A second sign-up leaves storage as the first one left it, whatever its e-mail. */
  lemma SignUpIdempotent(tables: map<string, seq<Record>>, first: string, second: string)
    ensures SignedUp(SignedUp(tables, first), second) == SignedUp(tables, first)
  {
    var profiles := Load(tables, ProfilesTable);
    if !HasMockProfile(profiles) {
      var after := profiles + [SeedRecord(first)];
      assert Satisfies(after[|profiles|], Filter("id", Str(MockUserId)));
    }
  }

  /**
   * After sign-up exactly one row carries the mock id if none did before, and
   * the count is unchanged otherwise; no other table changes.
   */
  lemma SignUpSeedsOnce(tables: map<string, seq<Record>>, email: string)
    ensures var f := Filter("id", Str(MockUserId));
            var before := CountMatching(Load(tables, ProfilesTable), f);
            CountMatching(Load(SignedUp(tables, email), ProfilesTable), f) == (if before == 0 then 1 else before)
    ensures forall k :: k != StorageKey(ProfilesTable) ==>
              (k in SignedUp(tables, email) <==> k in tables) &&
              (k in tables ==> SignedUp(tables, email)[k] == tables[k])
  {
    var f := Filter("id", Str(MockUserId));
    var profiles := Load(tables, ProfilesTable);
    FilteredEmpty(profiles, f);
    if !HasMockProfile(profiles) {
      FilteredAppend(profiles, [SeedRecord(email)], f);
      assert Filtered([SeedRecord(email)], f) == [SeedRecord(email)];
    } else {
      assert Filtered(profiles, f) != [];
    }
  }

  /**
   * With a mock profile already stored, sign-up leaves storage as it is;
   * otherwise the profiles table keeps every row and gains the seed at its
   * end, which reads as the default profile named after the e-mail.
   */
  lemma SignUpAppendsSeed(tables: map<string, seq<Record>>, email: string)
    ensures HasMockProfile(Load(tables, ProfilesTable)) ==> SignedUp(tables, email) == tables
    ensures !HasMockProfile(Load(tables, ProfilesTable)) ==>
              var before := Load(tables, ProfilesTable);
              var after := Load(SignedUp(tables, email), ProfilesTable);
              |after| == |before| + 1 && after[..|before|] == before
              && ProfileOfRecord(after[|before|])
                 == Some(UserProfile(MockUserId, BeforeFirst(email, '@'), "", "", "", "#000000", [], None))
  {
    SeedReadsAsProfile(email);
  }

  /** The seeded row reads as a profile with empty name, bio and avatar, no links and black theme. */
  lemma SeedReadsAsProfile(email: string)
    ensures ProfileOfRecord(SeedRecord(email))
         == Some(UserProfile(MockUserId, BeforeFirst(email, '@'), "", "", "", "#000000", [], None))
  {
  }

  datatype AuthResponse = AuthResponse(user: User, session: Option<Session>, error: Option<QueryError>)

  /** `MockSupabaseClient`: its `auth` methods and `from`. */
  class MockSupabaseClient {
    const store: LocalStore

    constructor (store: LocalStore)
      ensures this.store == store
    {
      this.store := store;
    }

    /** A session exists exactly when a user is stored. */
    method GetSession() returns (s: Option<Session>)
      ensures s.Some? <==> store.sessionUser.Some?
      ensures s.Some? ==> s.value.user == store.sessionUser.value
    {
      match store.sessionUser
      case Some(user) => s := Some(Session(user));
      case None => s := None;
    }

    /** Accepts any password and stores the fixed mock user under this e-mail. */
    method SignInWithPassword(email: string, password: string) returns (r: AuthResponse)
      modifies store`sessionUser
      ensures store.sessionUser == Some(User(MockUserId, email))
      ensures r == AuthResponse(User(MockUserId, email), Some(Session(User(MockUserId, email))), None)
    {
      var user := User(MockUserId, email);
      store.sessionUser := Some(user);
      r := AuthResponse(user, Some(Session(user)), None);
    }

    /** Seeds a default profile when none has the mock id; it does not sign in. */
    method SignUp(email: string, password: string) returns (r: AuthResponse)
      modifies store`tables
      ensures store.tables == SignedUp(old(store.tables), email)
      ensures r == AuthResponse(User(MockUserId, email), None, None)
    {
      var user := User(MockUserId, email);
      var profiles := Load(store.tables, ProfilesTable);
      var index := IndexOfId(profiles, Some(Str(user.id)));
      assert index >= 0 ==> Satisfies(profiles[index], Filter("id", Str(MockUserId)));
      if index < 0 {
        profiles := profiles + [SeedRecord(email)];
        store.tables := store.tables[StorageKey(ProfilesTable) := profiles];
      }
      r := AuthResponse(user, None, None);
    }

    /** Removes the stored user. */
    method SignOut() returns (error: Option<QueryError>)
      modifies store`sessionUser
      ensures store.sessionUser == None && error == None
    {
      store.sessionUser := None;
      error := None;
    }

    method From(table: string) returns (q: QueryBuilder)
      ensures fresh(q) && q.store == store && q.table == table
      ensures q.data == Load(store.tables, table) && q.filter == None
    {
      q := new QueryBuilder(store, table);
    }
  }
}

=== FILE: text.dfy ===
/**
 * The string operations the application relies on: ASCII `toLowerCase`, the
 * regular-expression class `\s`, and `String.prototype.split` on one
 * character, with `join` as its inverse.
 */
module Text {

  /** ASCII lower-casing of one character; every other character is kept. */
  function LowerChar(c: char): char
  {
    if 'A' <= c <= 'Z' then (c as int + 32) as char else c
  }

  predicate IsUpperAscii(c: char)
  {
    'A' <= c <= 'Z'
  }

  /** `s.toLowerCase()`, restricted to ASCII letters. */
  function ToLower(s: string): (r: string)
    ensures |r| == |s|
    ensures forall i :: 0 <= i < |s| ==> r[i] == LowerChar(s[i])
  {
    if s == [] then [] else [LowerChar(s[0])] + ToLower(s[1..])
  }

  /** Lower-casing twice is lower-casing once. */
  lemma {:induction false} ToLowerIdempotent(s: string)
    ensures ToLower(ToLower(s)) == ToLower(s)
  {
    var once := ToLower(s);
    assert forall i :: 0 <= i < |s| ==> ToLower(once)[i] == LowerChar(LowerChar(s[i])) == once[i];
  }

  /** The characters the JavaScript regular-expression class `\s` matches. */
  predicate IsWhitespace(c: char)
  {
    || c == ' ' || c == '\t' || c == '\n' || c == '\r'
    || c == '\U{B}' || c == '\U{C}' || c == '\U{A0}' || c == '\U{1680}'
    || ('\U{2000}' <= c <= '\U{200A}')
    || c == '\U{2028}' || c == '\U{2029}' || c == '\U{202F}' || c == '\U{205F}'
    || c == '\U{3000}' || c == '\U{FEFF}'
  }

  /** `s.replace(/\s/g, '')`: every whitespace character removed. */
  function RemoveWhitespace(s: string): string
  {
    if s == [] then []
    else if IsWhitespace(s[0]) then RemoveWhitespace(s[1..])
    else [s[0]] + RemoveWhitespace(s[1..])
  }

  /** What remains after removing whitespace is the non-whitespace characters, in order. */
  lemma {:induction false} RemoveWhitespaceSpec(s: string)
    ensures forall c :: c in RemoveWhitespace(s) <==> c in s && !IsWhitespace(c)
    ensures |RemoveWhitespace(s)| <= |s|
    ensures (forall i :: 0 <= i < |s| ==> !IsWhitespace(s[i])) ==> RemoveWhitespace(s) == s
  {
    if s != [] {
      RemoveWhitespaceSpec(s[1..]);
      assert s == [s[0]] + s[1..];
    }
  }

  /** Removal keeps order: it distributes over concatenation. */
  lemma {:induction false} RemoveWhitespaceAppend(a: string, b: string)
    ensures RemoveWhitespace(a + b) == RemoveWhitespace(a) + RemoveWhitespace(b)
  {
    if a == [] {
      assert a + b == b;
    } else {
      RemoveWhitespaceAppend(a[1..], b);
      assert (a + b)[0] == a[0] && (a + b)[1..] == a[1..] + b;
    }
  }

  /** `s.split(sep)`: the maximal runs between occurrences of `sep`. */
  function Split(s: string, sep: char): (parts: seq<string>)
    ensures |parts| >= 1
    decreases |s|
  {
    if s == [] then [""]
    else
      var rest := Split(s[1..], sep);
      if s[0] == sep then [""] + rest
      else [[s[0]] + rest[0]] + rest[1..]
  }

  /** `parts.join(sep)`. */
  function Join(parts: seq<string>, sep: char): string
    requires |parts| >= 1
  {
    if |parts| == 1 then parts[0] else parts[0] + [sep] + Join(parts[1..], sep)
  }

  /** No part produced by `split` contains the separator. */
  lemma {:induction false} SplitPartsLackSeparator(s: string, sep: char)
    ensures forall i :: 0 <= i < |Split(s, sep)| ==> sep !in Split(s, sep)[i]
  {
    if s != [] {
      SplitPartsLackSeparator(s[1..], sep);
    }
  }

  /** Joining what `split` produced gives back the original string. */
  lemma {:induction false} JoinSplit(s: string, sep: char)
    ensures Join(Split(s, sep), sep) == s
  {
    if s != [] {
      var rest := Split(s[1..], sep);
      JoinSplit(s[1..], sep);
      if s[0] == sep {
        assert Split(s, sep)[1..] == rest;
      } else if |rest| > 1 {
        assert Split(s, sep)[1..] == rest[1..];
      }
      assert s == [s[0]] + s[1..];
    }
  }

  /** A string without the separator splits into itself alone. */
  lemma {:induction false} SplitWithoutSeparator(s: string, sep: char)
    requires sep !in s
    ensures Split(s, sep) == [s]
  {
    if s != [] {
      SplitWithoutSeparator(s[1..], sep);
      assert s == [s[0]] + s[1..];
    }
  }

  /** A separator-free prefix followed by the separator splits off as the first part. */
  lemma {:induction false} SplitAfterPrefix(p: string, sep: char, rest: string)
    requires sep !in p
    ensures Split(p + [sep] + rest, sep) == [p] + Split(rest, sep)
  {
    var s := p + [sep] + rest;
    if p == [] {
      assert s[1..] == rest;
    } else {
      assert s[1..] == p[1..] + [sep] + rest;
      SplitAfterPrefix(p[1..], sep, rest);
      assert [p[0]] + p[1..] == p;
    }
  }

  /** Splitting a join of separator-free parts gives back the parts. */
  lemma {:induction false} SplitJoin(parts: seq<string>, sep: char)
    requires |parts| >= 1
    requires forall i :: 0 <= i < |parts| ==> sep !in parts[i]
    ensures Split(Join(parts, sep), sep) == parts
  {
    if |parts| == 1 {
      SplitWithoutSeparator(parts[0], sep);
    } else {
      SplitJoin(parts[1..], sep);
      SplitAfterPrefix(parts[0], sep, Join(parts[1..], sep));
      assert parts == [parts[0]] + parts[1..];
    }
  }

  /** A part holding the separator joins to the same text as its two halves. */
  lemma {:induction false} JoinSplitsPart(before: seq<string>, x: string, y: string, after: seq<string>, sep: char)
    ensures Join(before + [x + [sep] + y] + after, sep) == Join(before + [x, y] + after, sep)
  {
    if before == [] {
      assert before + [x + [sep] + y] + after == [x + [sep] + y] + after;
      assert before + [x, y] + after == [x] + ([y] + after);
      assert ([x] + ([y] + after))[1..] == [y] + after;
      if after != [] {
        assert ([x + [sep] + y] + after)[1..] == after;
        assert ([y] + after)[1..] == after;
      }
    } else {
      JoinSplitsPart(before[1..], x, y, after, sep);
      assert (before + [x + [sep] + y] + after)[1..] == before[1..] + [x + [sep] + y] + after;
      assert (before + [x, y] + after)[1..] == before[1..] + [x, y] + after;
    }
  }

  /** `s.split(sep)[0]`: everything before the first occurrence of `sep`. */
  function BeforeFirst(s: string, sep: char): string
  {
    Split(s, sep)[0]
  }

  /** `BeforeFirst` is the longest separator-free prefix of the string. */
  lemma {:induction false} BeforeFirstSpec(s: string, sep: char)
    ensures sep !in BeforeFirst(s, sep)
    ensures BeforeFirst(s, sep) <= s
    ensures |BeforeFirst(s, sep)| < |s| ==> s[|BeforeFirst(s, sep)|] == sep
  {
    if s != [] {
      BeforeFirstSpec(s[1..], sep);
    }
  }
}

=== FILE: types.dfy ===
/**
 * The shared profile schema (`LinkItem`, `UserProfile`) and its shape as an
 * untyped row of the `profiles` table.
 */
module Types {
  import opened Values

  datatype LinkItem = LinkItem(id: string, title: string, url: string, active: bool)

  datatype UserProfile = UserProfile(
    id: string,
    username: string,
    fullName: string,
    bio: string,
    avatarUrl: string,
    themeColor: string,
    links: seq<LinkItem>,
    updatedAt: Option<string>)

  function LinkToValue(l: LinkItem): Value
  {
    Obj(map["id" := Str(l.id), "title" := Str(l.title), "url" := Str(l.url), "active" := Bool(l.active)])
  }

  /** Reads a link back from an object; extra properties are ignored. */
  function LinkOfValue(v: Value): Option<LinkItem>
  {
    if v.Obj? && "id" in v.fields && v.fields["id"].Str? && "title" in v.fields && v.fields["title"].Str?
       && "url" in v.fields && v.fields["url"].Str? && "active" in v.fields && v.fields["active"].Bool?
    then Some(LinkItem(v.fields["id"].s, v.fields["title"].s, v.fields["url"].s, v.fields["active"].b))
    else None
  }

  function LinksToValues(ls: seq<LinkItem>): (vs: seq<Value>)
    ensures |vs| == |ls|
  {
    if ls == [] then [] else [LinkToValue(ls[0])] + LinksToValues(ls[1..])
  }

  /** Reads an array of links; any element that is not a link makes the whole read fail. */
  function LinksOfValues(vs: seq<Value>): Option<seq<LinkItem>>
  {
    if vs == [] then Some([])
    else match (LinkOfValue(vs[0]), LinksOfValues(vs[1..]))
      case (Some(l), Some(ls)) => Some([l] + ls)
      case _ => None
  }

  /** The property names a profile row carries. */
  const ProfileKeys: set<string> :=
    {"id", "username", "full_name", "bio", "avatar_url", "theme_color", "links", "updated_at"}

  /** The row stored for a profile; `updated_at` is present only when the profile has one. */
  function ProfileToRecord(p: UserProfile): Record
  {
    var base := map[
      "id" := Str(p.id), "username" := Str(p.username), "full_name" := Str(p.fullName),
      "bio" := Str(p.bio), "avatar_url" := Str(p.avatarUrl), "theme_color" := Str(p.themeColor),
      "links" := Arr(LinksToValues(p.links))];
    match p.updatedAt
    case Some(t) => base["updated_at" := Str(t)]
    case None => base
  }

  predicate HasString(r: Record, key: string)
  {
    key in r && r[key].Str?
  }

  /** An optional string property: absent, or a string. */
  predicate MayHaveString(r: Record, key: string)
  {
    key in r ==> r[key].Str?
  }

  /**
   * Reads a row as a profile. A missing `avatar_url` reads as the empty
   * string and a missing `updated_at` as none; any other missing or
   * mistyped property makes the row unreadable.
   */
  function ProfileOfRecord(r: Record): Option<UserProfile>
  {
    if HasString(r, "id") && HasString(r, "username") && HasString(r, "full_name") && HasString(r, "bio")
       && MayHaveString(r, "avatar_url") && HasString(r, "theme_color") && MayHaveString(r, "updated_at")
       && "links" in r && r["links"].Arr? && LinksOfValues(r["links"].items).Some?
    then Some(UserProfile(
      r["id"].s, r["username"].s, r["full_name"].s, r["bio"].s,
      if "avatar_url" in r then r["avatar_url"].s else "",
      r["theme_color"].s,
      LinksOfValues(r["links"].items).value,
      if "updated_at" in r then Some(r["updated_at"].s) else None))
    else None
  }

  /** Every link list survives being written as an array and read back. */
  lemma {:induction false} LinksRoundTrip(ls: seq<LinkItem>)
    ensures LinksOfValues(LinksToValues(ls)) == Some(ls)
  {
    if ls != [] {
      LinksRoundTrip(ls[1..]);
      var vs := LinksToValues(ls);
      assert vs[0] == LinkToValue(ls[0]) && vs[1..] == LinksToValues(ls[1..]);
      assert [ls[0]] + ls[1..] == ls;
    }
  }

  /** Every profile survives being written as a row and read back. */
  lemma ProfileRoundTrip(p: UserProfile)
    ensures ProfileOfRecord(ProfileToRecord(p)) == Some(p)
  {
    LinksRoundTrip(p.links);
  }

  /**
   * A stamped profile merged over any older row (`{...old, ...new}`) still
   * reads back as exactly that profile: the merge keeps stale properties, but
   * every property a profile is read from comes from the new row.
   */
  lemma MergedRowReadsAsProfile(older: Record, p: UserProfile)
    requires p.updatedAt.Some?
    ensures ProfileOfRecord(older + ProfileToRecord(p)) == Some(p)
  {
    var r := ProfileToRecord(p);
    var m := older + r;
    assert forall k :: k in ProfileKeys ==> k in r && m[k] == r[k];
    ProfileRoundTrip(p);
  }
}

=== FILE: values.dfy ===
/**
 * Parsed JSON values as the in-browser mock backend keeps them, and the
 * JavaScript strict equality (`===`) its filters and upserts compare with.
 */
module Values {

  datatype Option<T> = None | Some(value: T)

  /** A value that `JSON.parse` can produce (numbers restricted to integers). */
  datatype Value =
    | Null
    | Bool(b: bool)
    | Num(n: int)
    | Str(s: string)
    | Arr(items: seq<Value>)
    | Obj(fields: map<string, Value>)

  /** An untyped table row: a JavaScript object with its own properties. */
  type Record = map<string, Value>

  /** `row[key]`: `None` stands for `undefined`, the value of an absent property. */
  function Get(row: Record, key: string): Option<Value>
  {
    if key in row then Some(row[key]) else None
  }

  /** Null, booleans, numbers and strings, which `===` compares by value. */
  predicate IsPrimitive(v: Value)
  {
    !v.Arr? && !v.Obj?
  }

  /**
   * `a === b`. Arrays and objects compare by reference; a row read back from
   * storage is a fresh object, so it is never identical to a caller's value.
   */
  predicate StrictEquals(a: Value, b: Value)
  {
    match a
    case Null => b.Null?
    case Bool(x) => b.Bool? && b.b == x
    case Num(x) => b.Num? && b.n == x
    case Str(x) => b.Str? && b.s == x
    case _ => false
  }

  /** `===` where either side may be `undefined`; `undefined === undefined` holds. */
  predicate StrictEqualsOpt(a: Option<Value>, b: Option<Value>)
  {
    match (a, b)
    case (None, None) => true
    case (Some(x), Some(y)) => StrictEquals(x, y)
    case _ => false
  }

  /** Strict equality is value equality on primitives and never holds otherwise. */
  lemma StrictEqualsMeansSamePrimitive(a: Value, b: Value)
    ensures StrictEquals(a, b) <==> IsPrimitive(a) && a == b
  {
  }
}
